=== FILE: README.md ===
# Smart pantry recipe finder — a Dafny model of its core logic

The application keeps a pantry of ingredients in the browser. It lets the user list
ingredients by typing them or by photographing them, and asks a language model for
recipes that use them. This project models the four pieces of deterministic logic inside
it and proves properties of each:

- **The pantry store** (`pantry.dfy`, module `Pantry`). This is an ordered list of
  `Ingredient(id, name, addedAt)` with four operations:
  - add, deduplicated case-insensitively;
  - remove by id;
  - clear;
  - list names.

  The store keeps an invariant, `Dedup`, which both add and remove preserve. The duplicate
  test is asymmetric, and several lemmas pin this down: the new name is lower-cased and
  trimmed, but stored names are only lower-cased.
- **The find-recipes route** (`find_recipes.dfy`, `FindRecipes`), with three parts:
  - the guards, in order: the key guard answers 503, a body that cannot be parsed answers
    500, and missing or empty ingredients answer 400;
  - the prompt, whose layout is proved part by part;
  - extraction of the JSON text from a fenced reply, and decoding that falls back to `[]`.

  The two regular expressions that find a Markdown code fence are modelled as an
  explicit scan in `fence.dfy` (`Fence`). That scan is proved to return exactly the
  capture that a backtracking regex engine reports: the leftmost opening, then the greedy
  optional line feed, then the lazy capture.
- **The analyze-image route** (`analyze_image.dfy`, `AnalyzeImage`):
  - the same guards;
  - the MIME type defaulting to `image/jpeg`, and the `data:` URL (proved to read back);
  - the comma-list parsing of the model's reply.
- **The ingredient-input panel's handlers** (`ingredient_input.dfy`, `IngredientInput`):
  - manual comma-list entry;
  - removal of a detected name;
  - the outcome of an image drop;
  - "Find Recipes": it merges the detected names with the pantry's names, posts them
    and, on success, commits the detected names to the pantry one add at a time.

Shared pieces:

- `common.dfy` holds `Option`, `Result`, `Filter` and `Subseq`.
- `text.dfy` holds ASCII `toLowerCase` and `trim`, substring search, `split`/`join`, and
  the "split on commas, trim, drop empties" idiom.
- `api.dfy` holds the key guard, the model's reply, HTTP responses and JSON values.

Nothing that the code reads from outside is computed here; each becomes a parameter:

- the environment's API key;
- the parsed request body or form;
- the model's reply;
- `JSON.parse`, as `decode: string -> Option<Json>`;
- the clock readings behind each pantry add, as `clock: nat -> Stamp`;
- the outcome of each fetch.

`toLowerCase` and `trim` are modelled over ASCII. Whitespace means space, tab, line
feed, vertical tab, form feed and carriage return.

Behaviours of the code that the model keeps, each pinned by a lemma:

- Stored names are lower-cased but not trimmed before comparison. A name stored with
  surrounding whitespace is therefore never matched again (`Pantry.UntrimmedNameDefeatsDedup`).
- An absent `image` entry answers 400, and a file goes on to the model even when it is empty (`AnalyzeImage.Route`).
- The find-recipes route returns whatever the fenced text decodes to, whether or not it
  is an array (`FindRecipes.ParseRecipes`).
- Each token typed in one manual entry is checked against the list as it was before the
  click, so a token repeated in the entry is added once per repetition
  (`IngredientInput.RepeatedTokenAddedTwice`).

## Model

| member | source | states |
|---|---|---|
| Pantry.Add | app/store/pantryStore.ts:22-35 | A name whose lower-cased, trimmed key is empty, or equals some stored name's lower-cased form, leaves the pantry as it is; otherwise exactly one entry is appended carrying the name as given, the id and the timestamp, and earlier entries are untouched |
| Pantry.Remove | app/store/pantryStore.ts:36-39 | Exactly the entries with the id disappear; every other entry keeps its multiplicity and the relative order; an absent id changes nothing |
| Pantry.Clear | app/store/pantryStore.ts:40 | Clearing yields the empty pantry from any state |
| Pantry.Names | app/store/pantryStore.ts:41 | One name per entry, in insertion order |
| Pantry.AddKeepsDedup | app/store/pantryStore.ts:23-34 | Adding preserves the store's invariant: keys are non-empty and no key equals an earlier entry's lower-cased name |
| Pantry.RemoveKeepsDedup | app/store/pantryStore.ts:36-39 | Removing preserves the same invariant |
| Pantry.AddKeepsKnown | app/store/pantryStore.ts:28-33 | A key matched by some entry is still matched after an add |
| Pantry.AddMakesKnown | app/store/pantryStore.ts:22-35 | After adding a trimmed, non-empty name, its key is matched by some entry |
| Pantry.AddIdempotent | app/store/pantryStore.ts:23-31 | Adding an already-trimmed name twice is the same as adding it once, whatever the second id and timestamp |
| Pantry.Normalize | app/store/pantryStore.ts:23 | Specified by `Pantry.AddKeepsDedup` (adding keeps every stored key non-empty and no later entry's key equal to an earlier entry's lower-cased name) and `Text.LowerTrimCommute` (lower-casing then trimming equals trimming then lower-casing) |
| Pantry.Known | app/store/pantryStore.ts:24-26 | Specified by `Pantry.Add`'s contract and `Pantry.AddKeepsDedup`: a name is refused exactly when some stored name's lower-cased form equals its key |
| Pantry.SameKeyAddedOnce | app/store/pantryStore.ts:23-27 | Two names with the same key, added to an empty pantry, leave one entry, the first, when the first name is trimmed |
| Pantry.UntrimmedNameDefeatsDedup | app/store/pantryStore.ts:23-31 | " egg" followed by "egg", or " egg" twice, leaves two entries: stored names are not trimmed before comparison |
| Pantry.SharedIdRemovesBoth | app/store/pantryStore.ts:31-38 | Two entries added with the same clock reading share an id, and removing that id removes both |
| Pantry.NamesOfAdd | app/store/pantryStore.ts:28-41 | After an add the names are the old names, possibly followed by the added name |
| Common.Filter | app/store/pantryStore.ts:38 | The kept elements are exactly those satisfying the test, with their multiplicities, in their original order; if all pass, the list is returned unchanged |
| Common.FilterAppend | app/api/analyze-image/route.ts:62 | Filtering a concatenation filters each part in turn |
| Text.Lower | app/store/pantryStore.ts:23 | Lower-casing keeps the length and lower-cases each character |
| Text.Trim | app/store/pantryStore.ts:23 | The result has no whitespace at either end |
| Text.TrimUnique | app/store/pantryStore.ts:23 | A slice with only whitespace outside it and none at its ends is the trim |
| Text.TrimEmptyIffBlank | app/components/IngredientInput.tsx:64 | The trim is empty exactly when the input is all whitespace |
| Text.TrimIdempotent | app/components/IngredientInput.tsx:65 | Trimming twice is trimming once |
| Text.TrimLeadingSpace | app/store/pantryStore.ts:23 | A leading whitespace character does not change the trim |
| Text.LowerTrimCommute | app/store/pantryStore.ts:23 | Lower-casing then trimming equals trimming then lower-casing |
| Text.FindFrom | app/api/find-recipes/route.ts:93 | The first occurrence of the pattern at or after the start, or none at all |
| Text.Split | app/api/analyze-image/route.ts:59-60 | At least one piece, and no piece contains the separator |
| Text.JoinSplit | app/api/analyze-image/route.ts:59-60 | Joining the pieces with the separator gives back the split text |
| Text.SplitJoin | app/api/find-recipes/route.ts:28 | Splitting a join of items free of the separator's first character gives back the items |
| Text.SplitCharCount | app/api/analyze-image/route.ts:59-60 | Splitting on a character yields one more piece than it has occurrences |
| Text.Join | app/api/find-recipes/route.ts:28 | Specified by `Text.SplitJoin` and `Text.JoinSplit`: joining separator-free items and splitting on the separator are inverse |
| Text.TrimNonEmpty | app/api/analyze-image/route.ts:61-62 | Every kept item is non-empty and trimmed, and comes from some input piece; the kept items are the pieces' trims in piece order (a subsequence of `TrimAll`) |
| Text.TrimAll | app/api/analyze-image/route.ts:61 | One trimmed item per piece, at the same position |
| Text.TrimNonEmptyIsFilter | app/api/analyze-image/route.ts:61-62 | Trimming then dropping empties is exactly filtering the trims for non-emptiness: each non-blank piece contributes its trim, once, in order |
| Text.TrimNonEmptyAppend | app/api/analyze-image/route.ts:61-62 | The items kept from two lists of pieces are those kept from the first followed by those kept from the second |
| Text.SplitAppend | app/api/analyze-image/route.ts:60 | Splitting on a character across one occurrence of it gives the pieces before it followed by the pieces after it |
| Text.CommaTokens | app/api/analyze-image/route.ts:59-62 | Every token is non-empty, trimmed and comma-free, and there are at most one more tokens than commas |
| Text.CommaTokensOfBlank | app/api/analyze-image/route.ts:56-62 | A blank text yields no tokens |
| Text.CommaTokensAppend | app/api/analyze-image/route.ts:59-62 | The tokens of a text are the tokens before any one of its commas followed by the tokens after it |
| Text.CommaTokensOfPiece | app/api/analyze-image/route.ts:59-62 | A comma-free text is a single token, its trim, unless it is blank, when it yields none; with the previous row this determines the tokens of every text |
| Text.CommaTokensJoin | app/api/analyze-image/route.ts:59-62 | A ", "-separated list of trimmed, non-empty, comma-free names tokenizes back to exactly those names, in order, with repetitions |
| Api.KeyConfigured | app/api/find-recipes/route.ts:10 | Specified by `FindRecipes.UnconfiguredIgnoresRequest` and `AnalyzeImage.UnconfiguredIgnoresForm`: a missing, empty or placeholder key answers 503 whatever else arrives |
| Api.MessageOr | app/api/find-recipes/route.ts:105 | Specified through the routes' contracts: a thrown error answers 500 with its message, or with the route's default when the message is empty (also app/api/analyze-image/route.ts:68) |
| Api.ContentOr | app/api/find-recipes/route.ts:87 | A missing or empty content gives the fallback; any other content is kept |
| Fence.Scan | app/api/find-recipes/route.ts:93 | The capture's bounds lie within the reply |
| Fence.NoOpeningNoMatch | app/api/find-recipes/route.ts:93 | Without an opening, the regex matches nowhere |
| Fence.NoClosingNoMatch | app/api/find-recipes/route.ts:93 | With an opening but no later "```", the regex matches nowhere |
| Fence.ClosingIsChosen | app/api/find-recipes/route.ts:93 | The first opening, the greedy line feed and the first closing "```" form the match the engine picks |
| Fence.ScanMatchesRegex | app/api/find-recipes/route.ts:93 | The scan returns exactly the leftmost, greedy-newline, lazy-capture match, and returns nothing exactly when no match exists |
| Fence.CandidateOfUnfenced | app/api/find-recipes/route.ts:93-94 | A reply without "```" is used whole |
| Fence.CandidateOfTaggedFence | app/api/find-recipes/route.ts:93-94 | Text wrapped in a json-tagged fence is extracted unchanged |
| Fence.CandidateOfPlainFence | app/api/find-recipes/route.ts:93-94 | Text wrapped in an untagged fence is extracted unchanged |
| Fence.Capture | app/api/find-recipes/route.ts:93 | Specified by `Fence.ScanMatchesRegex`: the captured text is the one the regex's group captures, and there is none exactly when the regex does not match |
| Fence.Candidate | app/api/find-recipes/route.ts:93-94 | Specified by `Fence.JsonCaptureWins` (whenever a json-tagged fence matches anywhere, its capture is the candidate) and the three `Fence.CandidateOf…` lemmas (a reply that is exactly one tagged or untagged fence yields its contents; a reply without "```" is used whole) |
| Fence.JsonCaptureWins | app/api/find-recipes/route.ts:93-94 | If the json-tagged regex matches anywhere in the reply, the capture exists and the candidate is that capture, whatever else the reply holds |
| FindRecipes.DietaryClause | app/api/find-recipes/route.ts:30-32 | Specified by `FindRecipes.ClausesPresentIffSet`: the dietary clause is empty exactly when no preference is given, and otherwise carries the preference right after its fixed lead |
| FindRecipes.CuisineClause | app/api/find-recipes/route.ts:34-36 | Specified by `FindRecipes.ClausesPresentIffSet`: the cuisine clause is empty exactly when no cuisine is given, and otherwise carries the cuisine right after its fixed lead |
| FindRecipes.BuildPrompt | app/api/find-recipes/route.ts:28-36 | Specified by `FindRecipes.PromptLayout`, `FindRecipes.ClausesPresentIffSet` and `FindRecipes.PromptRecoversIngredients` |
| FindRecipes.PromptLayout | app/api/find-recipes/route.ts:28-69 | The prompt is, in order: the fixed opening, the ingredients joined by ", ", the request for three recipes, the dietary clause, the cuisine clause, and the fixed schema text |
| FindRecipes.ClausesPresentIffSet | app/api/find-recipes/route.ts:30-36 | Each optional clause is present exactly when its preference is non-empty, and then quotes it |
| FindRecipes.PromptRecoversIngredients | app/api/find-recipes/route.ts:28 | The prompt's ingredient segment splits back into the ingredients, in order and with repetitions |
| FindRecipes.ParseRecipes | app/api/find-recipes/route.ts:91-101 | The decoded candidate is returned as is, array or not; if decoding fails, the result is the empty list |
| FindRecipes.Route | app/api/find-recipes/route.ts:8-108 | The guards apply in order: 503, then 500 for a body that cannot be parsed, then 400. The model is prompted exactly when all pass, and with the built prompt. A failed call answers 500 with its message or the default; otherwise the answer is the parsed reply, with missing content read as "[]" |
| FindRecipes.UnconfiguredIgnoresRequest | app/api/find-recipes/route.ts:10-15 | Without a usable key the answer is 503 whatever the body and the reply |
| FindRecipes.MissingContentIsEmpty | app/api/find-recipes/route.ts:87-101 | A missing or empty reply content yields the empty list |
| FindRecipes.TaggedReplyDecodes | app/api/find-recipes/route.ts:93-95 | A json-fenced decodable text yields its decoded value |
| AnalyzeImage.MimeOrDefault | app/api/analyze-image/route.ts:31 | An empty type becomes image/jpeg; any other type is kept |
| AnalyzeImage.DataUrl | app/api/analyze-image/route.ts:47 | Specified by `AnalyzeImage.DataUrlRoundTrip`: the URL reads back to the MIME type and the base64 text |
| AnalyzeImage.DataUrlRoundTrip | app/api/analyze-image/route.ts:47 | The data URL reads back to the MIME type and the base64 text |
| AnalyzeImage.ParseIngredients | app/api/analyze-image/route.ts:56-62 | Every name is non-empty, trimmed and comma-free; a missing reply yields none; there are at most one more names than commas |
| AnalyzeImage.EmptyReplyNoIngredients | app/api/analyze-image/route.ts:56-62 | An empty reply yields no names |
| AnalyzeImage.ParseIngredientsSplits | app/api/analyze-image/route.ts:56-62 | A reply parses to the names before any one of its commas followed by the names after it |
| AnalyzeImage.ParseIngredientsOfPiece | app/api/analyze-image/route.ts:56-62 | A comma-free reply is one name, its trim, or none when blank; with the previous row this fixes the parse of every reply |
| AnalyzeImage.ParseDropsBlankTokens | app/api/analyze-image/route.ts:59-62 | " tomato , ,onion" parses to ["tomato", "onion"]: names are trimmed and a blank item is dropped |
| AnalyzeImage.ParseListedReply | app/api/analyze-image/route.ts:56-62 | A reply listing names separated by ", " parses to exactly those names, in reply order |
| AnalyzeImage.Route | app/api/analyze-image/route.ts:8-71 | The guards apply in order: 503, then 500 for a form that cannot be parsed, then 400 for an absent image. The model is called exactly when all pass, with the instruction and the data URL. A failed call answers 500; otherwise the answer is the parsed names |
| AnalyzeImage.UnconfiguredIgnoresForm | app/api/analyze-image/route.ts:10-15 | Without a usable key the answer is 503 whatever the form and the reply |
| AnalyzeImage.UntypedImageSentAsJpeg | app/api/analyze-image/route.ts:31-47 | A file without a type is sent as "data:image/jpeg;base64," followed by its base64 text |
| IngredientInput.AddManual | app/components/IngredientInput.tsx:63-73 | Blank input changes nothing. Otherwise the input is cleared and the list keeps its prefix. A name is in the new list iff it was in the old list or is a token. Names already listed keep their count, every other token is appended as often as it occurs in the input, and the appended names follow the input's token order |
| IngredientInput.RemoveDetected | app/components/IngredientInput.tsx:75-77 | Every copy of the name goes; other names keep their counts and order; an absent name changes nothing |
| IngredientInput.Received | app/components/IngredientInput.tsx:36-46 | A 200 answer reaches the handler with its field; any error status is a failure |
| IngredientInput.OnDrop | app/components/IngredientInput.tsx:25-53 | No file changes nothing. An answer replaces the list with the returned names, or with the empty list if the field is absent, and clears the error. A failure keeps the list and sets the failure message |
| IngredientInput.FindDisabled | app/components/IngredientInput.tsx:240 | Specified by `IngredientInput.SentIffEnabled`: the button is disabled exactly when a click would post nothing |
| IngredientInput.AllIngredients | app/components/IngredientInput.tsx:80 | The posted list is the detected names followed by the pantry's names, without deduplication |
| IngredientInput.Commit | app/components/IngredientInput.tsx:111 | Committing only appends entries, at most one per committed name |
| IngredientInput.RecipesOr | app/components/IngredientInput.tsx:108 | A missing or falsy recipes field shows as the empty list; anything else is shown as received |
| IngredientInput.Search | app/components/IngredientInput.tsx:79-119 | An empty merge sets the error and sends nothing. Otherwise the merged list is posted with the preferences. A failure only sets the error. Success shows the recipes, commits the detected names to the pantry in order, and clears the list |
| IngredientInput.SentIffEnabled | app/components/IngredientInput.tsx:240 | A click posts a request exactly when the button is not disabled |
| IngredientInput.FailedSearchKeepsState | app/components/IngredientInput.tsx:113-115 | A failed search leaves the pantry, the detected list and the typed text unchanged, and shows nothing |
| IngredientInput.CommitKeepsDedup | app/components/IngredientInput.tsx:111 | Committing keeps the pantry's invariant |
| IngredientInput.CommitAddsOnlyNames | app/components/IngredientInput.tsx:111 | Every entry a commit adds carries one of the committed names |
| IngredientInput.CommitInOrder | app/components/IngredientInput.tsx:111 | The names of the entries a commit adds are a subsequence of the committed names: they are added in list order |
| IngredientInput.CommitKeepsKnown | app/components/IngredientInput.tsx:111 | A key the pantry knew before a commit is still known after it |
| IngredientInput.CommitCovers | app/components/IngredientInput.tsx:111-112 | After committing trimmed, non-empty names, the pantry knows each of them |
| IngredientInput.AddManualWellFormed | app/components/IngredientInput.tsx:63-73 | Manual entry keeps every listed name non-empty, trimmed and comma-free |
| IngredientInput.RemoveWellFormed | app/components/IngredientInput.tsx:75-77 | Removal keeps that property |
| IngredientInput.DropWellFormed | app/components/IngredientInput.tsx:46 | Whatever the image route answers, the dropped image keeps that property |
| IngredientInput.SearchWellFormed | app/components/IngredientInput.tsx:112 | A search keeps that property |
| IngredientInput.SearchCommitsDetected | app/components/IngredientInput.tsx:108-112 | After a successful search the list is empty and the pantry knows every name that was listed |
| IngredientInput.SentQueryPassesGuard | app/components/IngredientInput.tsx:96-100 | A posted query is never answered 400, and prompts the model exactly when the key is configured, listing the merged names |
| IngredientInput.RepeatedTokenAddedTwice | app/components/IngredientInput.tsx:66-70 | "egg, egg" typed into an empty list adds "egg" twice, because each token is checked against the list as it was before the click |

## Left out

- The completion calls themselves are not modelled: the model name, `temperature`, `max_tokens` and the system message. The reply is a parameter.
- Transport is reduced to an input record and a status code: `NextRequest`/`NextResponse`, `request.json()`, `FormData` and `fetch`. A body or form that cannot be parsed is a `Failure` carrying the thrown message.
- Only string fields of the find-recipes body are modelled. A truthy non-array `ingredients` (a string, a number, an object) is not coerced: `ingredients.join` throws a TypeError and the route answers 500 with its message; the model does not represent such a body. Non-string preferences and non-string array elements, which the template and `join` coerce to text, are outside the model too.
- A text (non-file) `image` form entry is outside the model: the form is an optional file. In the code an empty text entry answers 400, and a non-empty one throws at `image.arrayBuffer()` and answers 500.
- `Buffer` base64 encoding is a library call, so its output is a parameter.
- The internals of `JSON.parse` are not modelled; it is the parameter `decode`. The client's `response.json()` is folded into the fetch outcome.
- The zustand `persist` storage under `pantry-storage` is persistence plumbing and is left out.
- `Date.now()` is not modelled. Each pantry add takes its id and timestamp as parameters, and the clock as a function of the add's position.
- Unicode `toLowerCase` and `trim` are not modelled. Both work over ASCII, and other whitespace characters count as text.
- `console.error`, the loading and analyzing flags, and the dropzone configuration are left out: they are effects with no bearing on state.
- The rendering components are not part of this model: `RecipeDisplay.tsx`, `SmartPantry.tsx` and `page.tsx`.
- `Fence.Scan`: its contract states only bounds; what it computes is stated by `Fence.ScanMatchesRegex`.
- `Text.Trim`: its contract states only that the ends are not whitespace; `Text.TrimUnique` characterizes the result.
- `Text.Split`: its contract states only that there is at least one piece and that no piece contains the separator; `Text.JoinSplit` fixes the pieces for a one-character separator such as the `','` the routes use.
- `Text.TrimNonEmpty`: its contract is met by the empty list; `Text.TrimNonEmptyIsFilter` states the full result.
- `Text.CommaTokens`: its contract is met by the empty list; `Text.CommaTokensAppend` and `Text.CommaTokensOfPiece` state the full result.
- `AnalyzeImage.ParseIngredients`: its contract is met by the empty list; `AnalyzeImage.ParseIngredientsSplits` and `AnalyzeImage.ParseIngredientsOfPiece` state the full result.
- `IngredientInput.Commit`: its contract states only that entries are appended, at most one per name; `IngredientInput.CommitInOrder`, `IngredientInput.CommitAddsOnlyNames` and `IngredientInput.CommitCovers` state which and in what order.
- Each handler is one atomic step over the state at click time. In the code, `handleFindRecipes` awaits the fetch and then commits the list it captured at the click and clears the current list (app/components/IngredientInput.tsx:80, 111-112), so names added while a search is pending are dropped without being committed. `addIngredient` compares against the pantry as it is when each add runs. The button is not disabled while a search is loading, so two searches can overlap. None of these interleavings is modelled.

=== FILE: analyze_image.dfy ===
/** The analyze-image route: credential guard, image guard, the data URL sent to the
    vision model (its reply is a parameter), and the comma-list parsing of the reply.
    Base64 encoding of the file's bytes is a library call; its output is given. */
module AnalyzeImage {
  import opened Common
  import opened Text
  import opened Api

  /** The uploaded file: its declared MIME type (possibly empty) and its base64 contents. */
  datatype ImageFile = ImageFile(mimeType: string, base64: string)

  /** What is sent to the vision model: the fixed instruction and the image URL. */
  datatype VisionRequest = VisionRequest(instruction: string, imageUrl: string)

  const Instruction := "Analyze this image and identify all visible food ingredients. Return only the ingredient names as a comma-separated list. Be specific (e.g., \"cherry tomatoes\" not just \"tomatoes\"). If you see packaged items, identify the ingredient inside. Focus only on raw ingredients that can be used for cooking."
  const DefaultMime := "image/jpeg"
  const NoImageMessage := "No image provided"
  const FailedMessage := "Failed to analyze image"
  const DataPrefix := "data:"
  const Base64Marker := ";base64,"

  /** `image.type || 'image/jpeg'`. */
  function MimeOrDefault(mimeType: string): (r: string)
    ensures mimeType == "" ==> r == DefaultMime
    ensures mimeType != "" ==> r == mimeType
  {
    if mimeType == "" then DefaultMime else mimeType
  }

  function DataUrl(mime: string, base64: string): string {
    DataPrefix + mime + Base64Marker + base64
  }

  /** Reads a data URL back: the text between "data:" and the first ";base64,", and the rest. */
  function ParseDataUrl(url: string): Option<(string, string)> {
    if |url| < |DataPrefix| || url[..|DataPrefix|] != DataPrefix then None
    else match FindFrom(url, Base64Marker, |DataPrefix|)
      case None => None
      case Some(i) => Some((url[|DataPrefix|..i], url[i + |Base64Marker|..]))
  }

  /** The marker starts with ';', so it cannot occur where the text holds another character. */
  lemma NoMarkerAt(u: string, k: int)
    requires 0 <= k < |u| && u[k] != ';'
    ensures !Occurs(u, Base64Marker, k)
  {
    assert Base64Marker[0] == ';';
    if k + |Base64Marker| <= |u| {
      assert u[k..k + |Base64Marker|][0] == u[k];
    }
  }

  /** The data URL carries the MIME type and the base64 text unchanged: reading it back
      gives both, for any MIME type without a ';' (base64 text never has one). */
  lemma DataUrlRoundTrip(mime: string, base64: string)
    requires ';' !in mime
    ensures ParseDataUrl(DataUrl(mime, base64)) == Some((mime, base64))
  {
    var u := DataUrl(mime, base64);
    var n := |DataPrefix|;
    assert u[..n] == DataPrefix;
    assert u[n..n + |mime|] == mime;
    assert u[n + |mime|..n + |mime| + |Base64Marker|] == Base64Marker;
    assert u[n + |mime| + |Base64Marker|..] == base64;
    forall k | n <= k < n + |mime| ensures !Occurs(u, Base64Marker, k) {
      assert u[k] == mime[k - n];
      assert mime[k - n] in mime;
      NoMarkerAt(u, k);
    }
    assert Occurs(u, Base64Marker, n + |mime|);
    assert FindFrom(u, Base64Marker, n) == Some(n + |mime|);
  }

  /** The reply's content (missing reads as ""), split on commas, trimmed, empties dropped. */
  function ParseIngredients(content: Option<string>): (r: seq<string>)
    ensures forall k :: 0 <= k < |r| ==> r[k] != "" && Trim(r[k]) == r[k] && ',' !in r[k]
    ensures content.None? ==> r == []
    ensures content.Some? ==> |r| <= multiset(content.value)[','] + 1
  {
    CommaTokensOfBlank("");
    CommaTokens(ContentOr(content, ""))
  }

  /** A reply splits at any comma into the ingredients before it and those after it. */
  lemma ParseIngredientsSplits(a: string, b: string)
    ensures ParseIngredients(Some(a + "," + b)) == ParseIngredients(Some(a)) + ParseIngredients(Some(b))
  {
    CommaTokensAppend(a, b);
    CommaTokensOfBlank("");
    assert ContentOr(Some(a + "," + b), "") == a + "," + b;
    assert ContentOr(Some(a), "") == a && ContentOr(Some(b), "") == b;
  }

  /** A comma-free reply is one ingredient, its trim, or none when it is blank. With
      `ParseIngredientsSplits` this determines the parse of every reply. */
  lemma ParseIngredientsOfPiece(a: string)
    requires ',' !in a
    ensures ParseIngredients(Some(a)) == if Trim(a) == "" then [] else [Trim(a)]
  {
    CommaTokensOfPiece(a);
    CommaTokensOfBlank("");
    assert ContentOr(Some(a), "") == a;
  }

  /** Surrounding spaces are trimmed and a blank token between two commas is dropped. */
  lemma ParseDropsBlankTokens()
    ensures ParseIngredients(Some(" tomato " + "," + (" " + "," + "onion"))) == ["tomato", "onion"]
  {
    ParsePaddedName();
    ParseBlankThenName();
    ParseIngredientsSplits(" tomato ", " " + "," + "onion");
  }

  lemma ParseBlankThenName()
    ensures ParseIngredients(Some(" " + "," + "onion")) == ["onion"]
  {
    ParseBlank();
    ParseBareName();
    ParseIngredientsSplits(" ", "onion");
  }

  lemma ParsePaddedName()
    ensures ParseIngredients(Some(" tomato ")) == ["tomato"]
  {
    TrimUnique(" tomato ", 1, 7);
    assert " tomato "[1..7] == "tomato";
    ParseIngredientsOfPiece(" tomato ");
  }

  lemma ParseBlank()
    ensures ParseIngredients(Some(" ")) == []
  {
    TrimEmptyIffBlank(" ");
    ParseIngredientsOfPiece(" ");
  }

  lemma ParseBareName()
    ensures ParseIngredients(Some("onion")) == ["onion"]
  {
    TrimOfTrimmed("onion");
    ParseIngredientsOfPiece("onion");
  }

  /** An empty reply yields no ingredients. */
  lemma EmptyReplyNoIngredients()
    ensures ParseIngredients(Some("")) == []
  {
    CommaTokensOfBlank("");
  }

  /** A reply written the way the instruction asks, names separated by ", ", parses back
      to exactly those names, in reply order. */
  lemma ParseListedReply(names: seq<string>)
    requires forall k :: 0 <= k < |names| ==> names[k] != "" && Trim(names[k]) == names[k] && ',' !in names[k]
    ensures ParseIngredients(Some(Join(names, ", "))) == names
  {
    var text := Join(names, ", ");
    CommaTokensJoin(names);
    assert ContentOr(Some(text), "") == text;
  }

  /** POST /api/analyze-image. `key` is the environment's API key, `form` the form's `image`
      entry (`None` when absent) or the message of the form-parsing error, `reply` what the
      completion call yields. */
  function Route(key: Option<string>, form: Result<Option<ImageFile>>, reply: Completion): (r: Exchange<VisionRequest, seq<string>>)
    ensures !KeyConfigured(key) ==> r == Exchange(None, Error(503, NotConfiguredMessage))
    ensures KeyConfigured(key) && form.Failure? ==> r == Exchange(None, Error(500, MessageOr(form.message, FailedMessage)))
    ensures KeyConfigured(key) && form == Success(None) ==> r == Exchange(None, Error(400, NoImageMessage))
    ensures r.modelRequest.Some? <==> KeyConfigured(key) && form.Success? && form.value.Some?
    ensures r.modelRequest.Some? ==>
              var img := form.value.value;
              r.modelRequest.value == VisionRequest(Instruction, DataUrl(MimeOrDefault(img.mimeType), img.base64))
    ensures r.modelRequest.Some? && reply.CallFailed? ==> r.response == Error(500, MessageOr(reply.message, FailedMessage))
    ensures r.modelRequest.Some? && reply.Replied? ==> r.response == Ok(ParseIngredients(reply.content))
  {
    if !KeyConfigured(key) then Exchange(None, Error(503, NotConfiguredMessage))
    else match form
      case Failure(m) => Exchange(None, Error(500, MessageOr(m, FailedMessage)))
      case Success(None) => Exchange(None, Error(400, NoImageMessage))
      case Success(Some(img)) =>
        var request := VisionRequest(Instruction, DataUrl(MimeOrDefault(img.mimeType), img.base64));
        match reply
        case CallFailed(m) => Exchange(Some(request), Error(500, MessageOr(m, FailedMessage)))
        case Replied(content) => Exchange(Some(request), Ok(ParseIngredients(content)))
  }

  /** An unconfigured key answers 503 whatever the form and the reply: the form is not
      read and the model is not called. */
  lemma UnconfiguredIgnoresForm(key: Option<string>, f1: Result<Option<ImageFile>>, f2: Result<Option<ImageFile>>,
                                c1: Completion, c2: Completion)
    requires !KeyConfigured(key)
    ensures Route(key, f1, c1) == Route(key, f2, c2)
    ensures Route(key, f1, c1).response.Error? && Route(key, f1, c1).response.status == 503
  {
  }

  /** A file without a declared type is sent as JPEG. */
  lemma UntypedImageSentAsJpeg(key: Option<string>, base64: string, reply: Completion)
    requires KeyConfigured(key)
    ensures Route(key, Success(Some(ImageFile("", base64))), reply).modelRequest
            == Some(VisionRequest(Instruction, "data:image/jpeg;base64," + base64))
  {
    assert DataPrefix + DefaultMime + Base64Marker == "data:image/jpeg;base64,";
    assert DataUrl(DefaultMime, base64) == "data:image/jpeg;base64," + base64;
  }
}

=== FILE: api.dfy ===
/** What the two API routes share: the credential guard, the model's reply, the HTTP
    response, and JSON values. */
module Api {
  import opened Common

  /** A JSON value. A number is the value `mantissa * 10^exponent` that `JSON.parse`
      produced; rounding to binary floating point (`1e-400` becomes 0, `1e400` becomes
      Infinity and is sent back as null) happens inside `decode`, which yields the
      rounded value. Zero is the falsy number. */
  datatype Json =
    | JNull
    | JBool(b: bool)
    | JNumber(mantissa: int, exponent: int)
    | JString(s: string)
    | JArray(items: seq<Json>)
    | JObject(members: seq<(string, Json)>)

  /** JavaScript falsiness of a JSON value (`x || fallback` takes the fallback exactly for these). */
  predicate Falsy(j: Json) {
    j == JNull || j == JBool(false) || j == JString("") || (j.JNumber? && j.mantissa == 0)
  }

  /** The placeholder the client is built with when no key is set. */
  const PlaceholderKey := "dummy-key"
  const NotConfiguredMessage := "OpenAI API key not configured"

  /** The routes' first guard: the environment key is present, non-empty and not the placeholder. */
  predicate KeyConfigured(key: Option<string>) {
    key.Some? && key.value != "" && key.value != PlaceholderKey
  }

  /** The completion call: a reply whose first choice's message content may be missing
      (`None` stands for a missing choice, message or content, or `null`), or a thrown error. */
  datatype Completion = Replied(content: Option<string>) | CallFailed(message: string)

  /** A route's HTTP answer: a 200 JSON body, or an error status with the `error` field. */
  datatype Response<T> = Ok(value: T) | Error(status: nat, message: string)

  /** One request handled by a route: what was sent to the model (`None`: no model call)
      and what was answered. */
  datatype Exchange<Q, T> = Exchange(modelRequest: Option<Q>, response: Response<T>)

  /** `error.message || fallback`. */
  function MessageOr(message: string, fallback: string): string {
    if message == "" then fallback else message
  }

  /** `content || fallback` for the reply's message content. */
  function ContentOr(content: Option<string>, fallback: string): (r: string)
    ensures content.Some? && content.value != "" ==> r == content.value
    ensures content.None? || content.value == "" ==> r == fallback
  {
    match content
    case Some(c) => if c == "" then fallback else c
    case None => fallback
  }
}

=== FILE: common.dfy ===
/** Small value types and sequence helpers shared by every part of the model. */
module Common {

  /** An optional value: JavaScript's `undefined`/`null` versus a present value. */
  datatype Option<+T> = None | Some(value: T) {
    /** The value, or `default` when absent (JavaScript's `x || default` for values that are never falsy). */
    function GetOr(default: T): T {
      match this
      case Some(v) => v
      case None => default
    }
  }

  /** The outcome of a step that can throw: the value, or the message of the thrown error. */
  datatype Result<+T> = Success(value: T) | Failure(message: string)

  /** `a` is a subsequence of `b`: its elements occur in `b` in the same order. */
  predicate Subseq<T(==)>(a: seq<T>, b: seq<T>)
    decreases |b|
  {
    if |a| == 0 then true
    else if |b| == 0 then false
    else if a[0] == b[0] then Subseq(a[1..], b[1..])
    else Subseq(a, b[1..])
  }

  /** Array.prototype.filter: keeps, in order, exactly the elements satisfying `keep`. */
  function Filter<T(==,!new)>(s: seq<T>, keep: T -> bool): (r: seq<T>)
    ensures |r| <= |s|
    ensures forall x :: x in r <==> x in s && keep(x)
    ensures forall x :: multiset(r)[x] == if keep(x) then multiset(s)[x] else 0
    ensures Subseq(r, s)
    ensures (forall k :: 0 <= k < |s| ==> keep(s[k])) ==> r == s
  {
    if |s| == 0 then []
    else
      var rest := Filter(s[1..], keep);
      assert s == [s[0]] + s[1..];
      if keep(s[0]) then
        assert ([s[0]] + rest)[1..] == rest;
        [s[0]] + rest
      else
        assert |rest| > 0 ==> rest[0] != s[0] by {
          if |rest| > 0 { assert rest[0] in rest; }
        }
        rest
  }

  /** Filtering distributes over concatenation. */
  lemma {:induction false} FilterAppend<T(!new)>(xs: seq<T>, ys: seq<T>, keep: T -> bool)
    ensures Filter(xs + ys, keep) == Filter(xs, keep) + Filter(ys, keep)
  {
    if |xs| == 0 {
      assert xs + ys == ys;
    } else {
      assert (xs + ys)[0] == xs[0];
      assert (xs + ys)[1..] == xs[1..] + ys;
      FilterAppend(xs[1..], ys, keep);
    }
  }

  /** Dropping the first element keeps a subsequence a subsequence. */
  lemma {:induction false} SubseqDropHead<T>(a: seq<T>, b: seq<T>)
    requires |a| > 0 && Subseq(a, b)
    ensures Subseq(a[1..], b)
    decreases |b|, 1
  {
    if a[0] == b[0] {
      SubseqExtend(a[1..], b[1..], b[0]);
    } else {
      SubseqDropHead(a, b[1..]);
      SubseqExtend(a[1..], b[1..], b[0]);
    }
    assert [b[0]] + b[1..] == b;
  }

  /** A subsequence of `c` is a subsequence of `c` with any element put in front. */
  lemma {:induction false} SubseqExtend<T>(a: seq<T>, c: seq<T>, x: T)
    requires Subseq(a, c)
    ensures Subseq(a, [x] + c)
    decreases |c|, 2
  {
    assert ([x] + c)[1..] == c;
    if |a| > 0 && a[0] == x {
      SubseqDropHead(a, c);
    }
  }

  /** Putting the same element in front of both keeps a subsequence a subsequence. */
  lemma SubseqCons<T>(x: T, a: seq<T>, b: seq<T>)
    requires Subseq(a, b)
    ensures Subseq([x] + a, [x] + b)
  {
    assert ([x] + a)[1..] == a;
    assert ([x] + b)[1..] == b;
  }

  /** Every element of a subsequence is an element of the sequence. */
  lemma {:induction false} SubseqMembers<T>(a: seq<T>, b: seq<T>)
    requires Subseq(a, b)
    ensures forall x :: x in a ==> x in b
    decreases |b|
  {
    if |a| > 0 {
      if a[0] == b[0] {
        SubseqMembers(a[1..], b[1..]);
        assert a == [a[0]] + a[1..];
      } else {
        SubseqMembers(a, b[1..]);
      }
    }
  }
}

=== FILE: fence.dfy ===
/** Extraction of the JSON text from a model reply that may wrap it in a Markdown code
    fence. The find-recipes route tries the regex /```json\n?([\s\S]*?)\n?```/, then
    /```\n?([\s\S]*?)\n?```/, then falls back to the whole reply. Here each regex is an
    explicit scan, proved to return the capture a backtracking regex engine returns. */
module Fence {
  import opened Common
  import opened Text

  const Ticks := "```"
  const JsonOpen := "```json"

  /** The closing part `\n?```` of the regexes can match at `b`. */
  predicate ClosesAt(s: string, b: int) {
    Occurs(s, Ticks, b) || Occurs(s, "\n```", b)
  }

  /** The regex `open\n?([\s\S]*?)\n?```` can match with the opening at `i` and the
      capture group spanning `s[a..b]`. */
  predicate RegexMatch(s: string, open: string, i: int, a: int, b: int) {
    && Occurs(s, open, i)
    && (a == i + |open| || (a == i + |open| + 1 && i + |open| < |s| && s[i + |open|] == '\n'))
    && a <= b
    && ClosesAt(s, b)
  }

  /** The match String.prototype.match reports: the leftmost opening; at it, the longest
      opening for which the rest can match (greedy `\n?`); then the shortest capture
      (lazy `*?`). */
  ghost predicate ChosenMatch(s: string, open: string, i: int, a: int, b: int) {
    && RegexMatch(s, open, i, a, b)
    && (forall i', a', b' :: RegexMatch(s, open, i', a', b') ==> i <= i')
    && (forall a', b' :: RegexMatch(s, open, i, a', b') ==> a' <= a)
    && (forall b' :: RegexMatch(s, open, i, a, b') ==> b <= b')
  }

  /** Where a match sits: the opening's index and the capture's bounds. */
  datatype Span = Span(start: nat, capStart: nat, capEnd: nat)

  /** Past the optional line feed that may follow the opening. */
  function OpeningEnd(s: string, j: nat): nat {
    if j < |s| && s[j] == '\n' then j + 1 else j
  }

  /** The scan: the first opening; past it and an optional line feed, the first "```";
      the capture stops before that "```", less one line feed directly in front of it. */
  function Scan(s: string, open: string): (r: Option<Span>)
    ensures r.Some? ==> r.value.capStart <= r.value.capEnd <= |s|
  {
    match FindFrom(s, open, 0)
    case None => None
    case Some(i) =>
      var a := OpeningEnd(s, i + |open|);
      match FindFrom(s, Ticks, a)
      case None => None
      case Some(q) => Some(Span(i, a, if q > a && s[q - 1] == '\n' then q - 1 else q))
  }

  /** The capture group of the regex, if it matches. */
  function Capture(s: string, open: string): Option<string> {
    match Scan(s, open)
    case Some(sp) => Some(s[sp.capStart..sp.capEnd])
    case None => None
  }

  /** The JSON candidate: the tagged fence's content, else the untagged fence's, else the reply. */
  function Candidate(content: string): string {
    match Capture(content, JsonOpen)
    case Some(c) => c
    case None =>
      match Capture(content, Ticks)
      case Some(c) => c
      case None => content
  }

  lemma NewlineTicks(s: string, k: int)
    ensures Occurs(s, "\n```", k) <==> 0 <= k < |s| && s[k] == '\n' && Occurs(s, Ticks, k + 1)
  {
    if 0 <= k && k + 4 <= |s| {
      assert s[k..k + 4] == [s[k]] + s[k + 1..k + 4];
    }
  }

  lemma TicksChars(s: string, k: int)
    requires Occurs(s, Ticks, k)
    ensures s[k] == '`' && s[k + 1] == '`' && s[k + 2] == '`'
  {
    assert s[k..k + 3] == Ticks;
  }

  /** No opening at all: the regex cannot match. */
  lemma NoOpeningNoMatch(s: string, open: string)
    requires FindFrom(s, open, 0).None?
    ensures forall i, a, b :: !RegexMatch(s, open, i, a, b)
  {
  }

  /** An opening but no "```" after it: the regex cannot match, at this opening or a later one. */
  lemma NoClosingNoMatch(s: string, open: string, i0: nat)
    requires FindFrom(s, open, 0) == Some(i0)
    requires FindFrom(s, Ticks, OpeningEnd(s, i0 + |open|)).None?
    ensures forall i, a, b :: !RegexMatch(s, open, i, a, b)
  {
    var a0 := OpeningEnd(s, i0 + |open|);
    forall i, a, b | RegexMatch(s, open, i, a, b) ensures false {
      NewlineTicks(s, b);
      if b < a0 {
        assert s[b] == '\n';
        if Occurs(s, Ticks, b) { TicksChars(s, b); }
      }
    }
  }

  /** An opening and a "```" after it: the scan's span is the engine's match. */
  lemma ClosingIsChosen(s: string, open: string, i0: nat, q: nat)
    requires FindFrom(s, open, 0) == Some(i0)
    requires FindFrom(s, Ticks, OpeningEnd(s, i0 + |open|)) == Some(q)
    ensures var a0 := OpeningEnd(s, i0 + |open|);
            ChosenMatch(s, open, i0, a0, if q > a0 && s[q - 1] == '\n' then q - 1 else q)
  {
    var a0 := OpeningEnd(s, i0 + |open|);
    var b0 := if q > a0 && s[q - 1] == '\n' then q - 1 else q;
    NewlineTicks(s, b0);
    assert RegexMatch(s, open, i0, a0, b0);
    forall b' | RegexMatch(s, open, i0, a0, b') ensures b0 <= b' {
      NewlineTicks(s, b');
    }
  }

  /** The scan finds exactly the match the regex engine reports, and nothing when the
      regex cannot match at all. */
  lemma ScanMatchesRegex(s: string, open: string)
    ensures Scan(s, open).Some? ==>
              var sp := Scan(s, open).value;
              ChosenMatch(s, open, sp.start, sp.capStart, sp.capEnd)
    ensures Scan(s, open).None? <==> forall i, a, b :: !RegexMatch(s, open, i, a, b)
  {
    var r := Scan(s, open);
    match FindFrom(s, open, 0)
    case None =>
      assert r.None?;
      NoOpeningNoMatch(s, open);
    case Some(i0) =>
      var a0 := OpeningEnd(s, i0 + |open|);
      match FindFrom(s, Ticks, a0)
      case None =>
        assert r.None?;
        NoClosingNoMatch(s, open, i0);
      case Some(q) =>
        var b0 := if q > a0 && s[q - 1] == '\n' then q - 1 else q;
        assert r == Some(Span(i0, a0, b0));
        ClosingIsChosen(s, open, i0, q);
        assert RegexMatch(s, open, i0, a0, b0);
  }

  /** A json-tagged opening begins with three backticks. */
  lemma JsonOpenHasTicks(s: string, k: int)
    ensures Occurs(s, JsonOpen, k) ==> Occurs(s, Ticks, k)
  {
    if 0 <= k && k + 7 <= |s| {
      assert s[k..k + 7][..3] == s[k..k + 3];
    }
  }

  /** A copy of `x` inside `s` holds no "```" of `s` when `x` has none. */
  lemma TicksNotInCopy(s: string, start: nat, x: string, k: nat)
    requires start + |x| <= |s| && s[start..start + |x|] == x && Free(x, Ticks)
    requires start <= k && k + 3 <= start + |x|
    ensures !Occurs(s, Ticks, k)
  {
    var m := k - start;
    assert !Occurs(x, Ticks, m);
    assert s[start..start + |x|][m..m + 3] == s[k..k + 3];
  }

  /** With no "```" inside `x`, the first "```" at or after `start` is the one that follows
      `x` and a line feed. */
  lemma FirstTicksAfter(s: string, start: nat, x: string)
    requires start + |x| + 4 <= |s|
    requires s[start..start + |x|] == x && Free(x, Ticks)
    requires s[start + |x|] == '\n' && Occurs(s, Ticks, start + |x| + 1)
    ensures FindFrom(s, Ticks, start) == Some(start + |x| + 1)
  {
    forall k | start <= k < start + |x| + 1 ensures !Occurs(s, Ticks, k) {
      if k + 3 <= start + |x| {
        TicksNotInCopy(s, start, x, k);
      } else {
        assert s[k..k + 3][start + |x| - k] == '\n';
      }
    }
  }

  /** A reply with no "```" at all is its own candidate. */
  lemma CandidateOfUnfenced(s: string)
    requires Free(s, Ticks)
    ensures Candidate(s) == s
  {
    forall k ensures !Occurs(s, JsonOpen, k) {
      JsonOpenHasTicks(s, k);
    }
  }

  /** Wrapping JSON text that contains no "```" in a json-tagged fence, and extracting,
      gives the text back. */
  lemma CandidateOfTaggedFence(x: string)
    requires Free(x, Ticks)
    ensures Candidate("```json\n" + x + "\n```") == x
  {
    var s := "```json\n" + x + "\n```";
    assert s[..7] == JsonOpen;
    assert FindFrom(s, JsonOpen, 0) == Some(0);
    assert s[7] == '\n';
    assert s[8..8 + |x|] == x;
    assert s[8 + |x| + 1..] == Ticks;
    FirstTicksAfter(s, 8, x);
    assert s[8 + |x|] == '\n';
  }

  /** Any reply that holds a json-tagged fence somewhere is answered with that fence's capture. */
  lemma JsonCaptureWins(s: string)
    requires exists i, a, b :: RegexMatch(s, JsonOpen, i, a, b)
    ensures Capture(s, JsonOpen).Some? && Candidate(s) == Capture(s, JsonOpen).value
  {
    ScanMatchesRegex(s, JsonOpen);
  }

  /** The same through an untagged fence. */
  lemma CandidateOfPlainFence(x: string)
    requires Free(x, Ticks)
    ensures Candidate("```\n" + x + "\n```") == x
  {
    var s := "```\n" + x + "\n```";
    assert s[..3] == Ticks;
    assert FindFrom(s, Ticks, 0) == Some(0);
    assert s[3] == '\n';
    assert s[4..4 + |x|] == x;
    assert s[4 + |x| + 1..] == Ticks;
    FirstTicksAfter(s, 4, x);
    forall k ensures !Occurs(s, JsonOpen, k) {
      if 0 <= k && k + 7 <= |s| {
        if k < 4 {
          assert s[k..k + 7][3 - k] == s[3];
        } else {
          JsonOpenHasTicks(s, k);
        }
      }
    }
  }
}

=== FILE: find_recipes.dfy ===
/** The find-recipes route: credential guard, ingredient guard, prompt composition,
    the model call (its reply is a parameter) and the tolerant decoding of the reply. */
module FindRecipes {
  import opened Common
  import opened Text
  import opened Api
  import opened Fence

  /** The body the route reads: `ingredients` may be missing; a missing `dietary` or
      `cuisine` behaves as the empty string, since both are only checked for truthiness. */
  datatype RecipeQuery = RecipeQuery(ingredients: Option<seq<string>>, prefs: Prefs)
  datatype Prefs = Prefs(dietary: string, cuisine: string)

  const Opening := "You are an expert chef and nutritionist. Based on the following ingredients: "
  const Suggest := ", suggest 3 delicious recipes."
  const DietaryLead := " The recipes should be "
  const CuisineLead := " Focus on "
  const CuisineEnd := " cuisine."
  /** The fixed schema and closing instruction. */
  const Tail := "\n\nFor each recipe, provide:\n1. Recipe name\n2. Brief description (1-2 sentences)\n3. Cook time\n4. Number of servings\n5. Difficulty level (Easy/Medium/Hard)\n6. Complete list of ingredients with measurements\n7. Step-by-step cooking instructions\n8. Nutritional information per serving (calories, protein, carbs, fat)\n\nFormat your response as a JSON array with the following structure:\n[\n  {\n    \"name\": \"Recipe Name\",\n    \"description\": \"Brief description\",\n    \"cookTime\": \"30 minutes\",\n    \"servings\": \"4 servings\",\n    \"difficulty\": \"Easy\",\n    \"ingredients\": [\"ingredient 1 with measurement\", \"ingredient 2 with measurement\"],\n    \"instructions\": [\"step 1\", \"step 2\"],\n    \"nutrition\": {\n      \"calories\": \"350 kcal\",\n      \"protein\": \"25g\",\n      \"carbs\": \"40g\",\n      \"fat\": \"12g\"\n    }\n  }\n]\n\nPrioritize recipes that maximize the use of the provided ingredients. Be creative but practical."

  const NoIngredientsMessage := "No ingredients provided"
  const FailedMessage := "Failed to find recipes"

  function DietaryClause(dietary: string): string {
    if dietary == "" then "" else DietaryLead + dietary + "."
  }

  function CuisineClause(cuisine: string): string {
    if cuisine == "" then "" else CuisineLead + cuisine + CuisineEnd
  }

  /** The prompt: opening, the ingredients joined by ", ", the request for three recipes,
      the optional dietary clause, the optional cuisine clause, the schema. */
  function BuildPrompt(ingredients: seq<string>, prefs: Prefs): string {
    Opening + Join(ingredients, ", ") + Suggest
      + DietaryClause(prefs.dietary) + CuisineClause(prefs.cuisine) + Tail
  }

  /** Slicing a six-part concatenation at the part boundaries gives the parts back. */
  lemma SixParts(a: string, b: string, c: string, d: string, e: string, f: string)
    ensures var p := a + b + c + d + e + f;
            var j := |a| + |b|;
            && |p| == j + |c| + |d| + |e| + |f|
            && p[..|a|] == a
            && p[|a|..j] == b
            && p[j..j + |c|] == c
            && p[j + |c|..j + |c| + |d|] == d
            && p[j + |c| + |d|..|p| - |f|] == e
            && p[|p| - |f|..] == f
  {
    var p := a + b + c + d + e + f;
    var j := |a| + |b|;
    assert p == a + (b + (c + (d + (e + f))));
    assert p[|a|..] == b + (c + (d + (e + f)));
    assert p[j..] == c + (d + (e + f));
    assert p[j + |c|..] == d + (e + f);
    assert p[j + |c| + |d|..] == e + f;
  }

  /** Where each part of the prompt sits: the opening first, the joined ingredients right
      after it, the schema last, and between them the request for three recipes followed
      by the dietary clause and then the cuisine clause. */
  lemma PromptLayout(ingredients: seq<string>, prefs: Prefs)
    ensures var p := BuildPrompt(ingredients, prefs);
            var j := |Opening| + |Join(ingredients, ", ")|;
            var d := DietaryClause(prefs.dietary);
            && |p| == j + |Suggest| + |d| + |CuisineClause(prefs.cuisine)| + |Tail|
            && p[..|Opening|] == Opening
            && p[|Opening|..j] == Join(ingredients, ", ")
            && p[j..j + |Suggest|] == Suggest
            && p[j + |Suggest|..j + |Suggest| + |d|] == d
            && p[j + |Suggest| + |d|..|p| - |Tail|] == CuisineClause(prefs.cuisine)
            && p[|p| - |Tail|..] == Tail
  {
    SixParts(Opening, Join(ingredients, ", "), Suggest, DietaryClause(prefs.dietary),
             CuisineClause(prefs.cuisine), Tail);
  }

  /** Each optional clause is present exactly when its preference is non-empty, and then
      quotes the preference. */
  lemma ClausesPresentIffSet(prefs: Prefs)
    ensures DietaryClause(prefs.dietary) == "" <==> prefs.dietary == ""
    ensures prefs.dietary != "" ==>
              DietaryClause(prefs.dietary)[|DietaryLead|..|DietaryLead| + |prefs.dietary|] == prefs.dietary
    ensures CuisineClause(prefs.cuisine) == "" <==> prefs.cuisine == ""
    ensures prefs.cuisine != "" ==>
              CuisineClause(prefs.cuisine)[|CuisineLead|..|CuisineLead| + |prefs.cuisine|] == prefs.cuisine
  {
  }

  /** The prompt lists the ingredients exactly, in order and with repetitions: splitting its
      ingredient segment on ", " gives them back when no ingredient contains a comma. */
  lemma PromptRecoversIngredients(ingredients: seq<string>, prefs: Prefs)
    requires |ingredients| > 0
    requires forall k :: 0 <= k < |ingredients| ==> ',' !in ingredients[k]
    ensures var p := BuildPrompt(ingredients, prefs);
            Split(p[|Opening|..|Opening| + |Join(ingredients, ", ")|], ", ") == ingredients
  {
    PromptLayout(ingredients, prefs);
    SplitJoin(ingredients, ", ");
  }

  /** `JSON.parse` of the candidate, degrading to `[]` when it throws. The decoded value
      is returned as is, whether or not it is an array. */
  function ParseRecipes(content: string, decode: string -> Option<Json>): (r: Json)
    ensures decode(Candidate(content)) == Some(r) || (decode(Candidate(content)).None? && r == JArray([]))
  {
    match decode(Candidate(content))
    case Some(j) => j
    case None => JArray([])
  }

  /** POST /api/find-recipes. `key` is the environment's API key, `body` the parsed JSON
      body (or the message of the parse error), `reply` what the completion call yields,
      `decode` stands for `JSON.parse`. */
  function Route(key: Option<string>, body: Result<RecipeQuery>, reply: Completion,
                 decode: string -> Option<Json>): (r: Exchange<string, Json>)
    ensures !KeyConfigured(key) ==> r == Exchange(None, Error(503, NotConfiguredMessage))
    ensures KeyConfigured(key) && body.Failure? ==> r == Exchange(None, Error(500, MessageOr(body.message, FailedMessage)))
    ensures (KeyConfigured(key) && body.Success? &&
             (body.value.ingredients.None? || |body.value.ingredients.value| == 0))
              ==> r == Exchange(None, Error(400, NoIngredientsMessage))
    ensures r.modelRequest.Some? <==>
              KeyConfigured(key) && body.Success? && body.value.ingredients.Some? && |body.value.ingredients.value| > 0
    ensures r.modelRequest.Some? ==> r.modelRequest.value == BuildPrompt(body.value.ingredients.value, body.value.prefs)
    ensures r.modelRequest.Some? && reply.CallFailed? ==> r.response == Error(500, MessageOr(reply.message, FailedMessage))
    ensures r.modelRequest.Some? && reply.Replied? ==> r.response == Ok(ParseRecipes(ContentOr(reply.content, "[]"), decode))
  {
    if !KeyConfigured(key) then Exchange(None, Error(503, NotConfiguredMessage))
    else match body
      case Failure(m) => Exchange(None, Error(500, MessageOr(m, FailedMessage)))
      case Success(q) =>
        if q.ingredients.None? || |q.ingredients.value| == 0 then Exchange(None, Error(400, NoIngredientsMessage))
        else
          var prompt := BuildPrompt(q.ingredients.value, q.prefs);
          match reply
          case CallFailed(m) => Exchange(Some(prompt), Error(500, MessageOr(m, FailedMessage)))
          case Replied(content) => Exchange(Some(prompt), Ok(ParseRecipes(ContentOr(content, "[]"), decode)))
  }

  /** An unconfigured key answers 503 whatever the body and the reply: the body is not
      consulted and the model is not called. */
  lemma UnconfiguredIgnoresRequest(key: Option<string>, b1: Result<RecipeQuery>, b2: Result<RecipeQuery>,
                                   c1: Completion, c2: Completion, decode: string -> Option<Json>)
    requires !KeyConfigured(key)
    ensures Route(key, b1, c1, decode) == Route(key, b2, c2, decode)
    ensures Route(key, b1, c1, decode).response.Error? && Route(key, b1, c1, decode).response.status == 503
  {
  }

  /** A missing or empty content is read as "[]", which decodes to the empty list. */
  lemma MissingContentIsEmpty(content: Option<string>, decode: string -> Option<Json>)
    requires content.None? || content == Some("")
    requires decode("[]") == Some(JArray([]))
    ensures ParseRecipes(ContentOr(content, "[]"), decode) == JArray([])
  {
    CandidateOfUnfenced("[]");
  }

  /** A reply that is decodable text inside a json-tagged fence yields the decoded value. */
  lemma TaggedReplyDecodes(x: string, decode: string -> Option<Json>)
    requires Free(x, Ticks) && decode(x).Some?
    ensures ParseRecipes("```json\n" + x + "\n```", decode) == decode(x).value
  {
    CandidateOfTaggedFence(x);
  }
}

=== FILE: ingredient_input.dfy ===
/** The ingredient-input panel's handlers: the manual comma-list entry, removing a
    detected ingredient, the image drop's outcome, and "Find Recipes", which sends the
    detected ingredients together with the pantry's names and, on success, commits the
    detected ones to the pantry. Each fetch's outcome is a parameter, as are the clock
    readings the pantry's adds take. */
module IngredientInput {
  import opened Common
  import opened Text
  import opened Api
  import opened Pantry
  import FindRecipes
  import AnalyzeImage

  /** The panel's state, with the page's error line it writes through `setError`. */
  datatype Ui = Ui(manualInput: string, detected: seq<string>, prefs: FindRecipes.Prefs, error: string)

  /** The two clock readings one pantry add takes: the id's digits and the timestamp. */
  datatype Stamp = Stamp(id: string, at: int)

  /** After one click on "Find Recipes": the panel, the pantry, the query posted (`None`:
      no request) and the recipes handed to `onRecipesFound` (`None`: not called). */
  datatype Step = Step(ui: Ui, pantry: seq<Ingredient>, sent: Option<FindRecipes.RecipeQuery>, shown: Option<Json>)

  const NothingToSearchMessage := "Please add at least one ingredient"
  const SearchFailedMessage := "Failed to find recipes. Please try again."
  const AnalyzeFailedMessage := "Failed to analyze image. Please try again or enter ingredients manually."

  /** What the panel keeps in its detected list: non-empty, trimmed, comma-free names. */
  predicate WellFormed(ui: Ui) {
    forall k :: 0 <= k < |ui.detected| ==> ui.detected[k] != "" && Trim(ui.detected[k]) == ui.detected[k] && ',' !in ui.detected[k]
  }

  /** The "Add" button. Every token is checked against the list as it was before the
      click, so a token repeated within one entry is appended once per repetition. */
  function AddManual(ui: Ui): (r: Ui)
    ensures Trim(ui.manualInput) == "" ==> r == ui
    ensures Trim(ui.manualInput) != "" ==> r.manualInput == "" && r.prefs == ui.prefs && r.error == ui.error
    ensures |r.detected| >= |ui.detected| && r.detected[..|ui.detected|] == ui.detected
    ensures Trim(ui.manualInput) != "" ==>
              forall x :: x in r.detected <==> x in ui.detected || x in CommaTokens(ui.manualInput)
    ensures forall x :: x in ui.detected ==> multiset(r.detected)[x] == multiset(ui.detected)[x]
    ensures Trim(ui.manualInput) != "" ==>
              forall x :: x !in ui.detected ==> multiset(r.detected)[x] == multiset(CommaTokens(ui.manualInput))[x]
    ensures Trim(ui.manualInput) != "" ==> Subseq(r.detected[|ui.detected|..], CommaTokens(ui.manualInput))
  {
    if Trim(ui.manualInput) == "" then ui
    else
      var tokens := CommaTokens(ui.manualInput);
      var added := Filter(tokens, (t: string) => t !in ui.detected);
      assert forall x :: x in ui.detected ==> multiset(added)[x] == 0;
      assert (ui.detected + added)[|ui.detected|..] == added;
      ui.(manualInput := "", detected := ui.detected + added)
  }

  /** The "×" on a detected ingredient: every copy of that name goes, the rest keep their order. */
  function RemoveDetected(ui: Ui, name: string): (r: Ui)
    ensures r.manualInput == ui.manualInput && r.prefs == ui.prefs && r.error == ui.error
    ensures name !in r.detected
    ensures forall x :: x != name ==> multiset(r.detected)[x] == multiset(ui.detected)[x]
    ensures Subseq(r.detected, ui.detected)
    ensures name !in ui.detected ==> r == ui
  {
    var kept := Filter(ui.detected, (x: string) => x != name);
    assert (forall k :: 0 <= k < |ui.detected| ==> ui.detected[k] != name) ==> kept == ui.detected;
    ui.(detected := kept)
  }

  /** What a handler's fetch yields: a 2xx answer whose JSON body may lack the expected
      field (`None`), or a failure (a non-2xx status, an unreachable server, a body that is
      not JSON), all of which land in the same `catch`. */
  datatype Fetched<T> = Answered(field: Option<T>) | FetchFailed

  /** How a route's answer reaches the handler: a 200 carries the field, any error status
      is a failure. */
  function Received<T>(response: Response<T>): (r: Fetched<T>)
    ensures response.Ok? <==> r.Answered?
    ensures response.Ok? ==> r.field == Some(response.value)
  {
    match response
    case Ok(v) => Answered(Some(v))
    case Error(_, _) => FetchFailed
  }

  /** The drop zone's handler, given the analyze-image fetch (`None`: no file accepted).
      An answer replaces the detected list (`data.ingredients || []`); a failure keeps it
      and sets the error. */
  function OnDrop(ui: Ui, drop: Option<Fetched<seq<string>>>): (r: Ui)
    ensures drop.None? ==> r == ui
    ensures drop.Some? ==> r.manualInput == ui.manualInput && r.prefs == ui.prefs
    ensures drop.Some? && drop.value.Answered? ==> r.error == ""
    ensures drop.Some? && drop.value.Answered? && drop.value.field.Some? ==> r.detected == drop.value.field.value
    ensures drop.Some? && drop.value.Answered? && drop.value.field.None? ==> r.detected == []
    ensures drop.Some? && drop.value.FetchFailed? ==> r.detected == ui.detected && r.error == AnalyzeFailedMessage
  {
    match drop
    case None => ui
    case Some(Answered(ingredients)) => ui.(detected := ingredients.GetOr([]), error := "")
    case Some(FetchFailed) => ui.(error := AnalyzeFailedMessage)
  }

  /** The "Find Recipes" button's `disabled` attribute. */
  predicate FindDisabled(ui: Ui, pantry: seq<Ingredient>) {
    |ui.detected| == 0 && |Names(pantry)| == 0
  }

  /** The list posted to the find-recipes route: detected ingredients, then the pantry's names. */
  function AllIngredients(ui: Ui, pantry: seq<Ingredient>): (r: seq<string>)
    ensures |r| == |ui.detected| + |pantry|
    ensures r[..|ui.detected|] == ui.detected && r[|ui.detected|..] == Names(pantry)
  {
    ui.detected + Names(pantry)
  }

  /** The detected names added to the pantry one after another, the `k`-th add reading
      `clock(k)`. Each add sees the entries the earlier ones made. */
  function Commit(p: seq<Ingredient>, names: seq<string>, clock: nat -> Stamp, k: nat): (r: seq<Ingredient>)
    ensures |p| <= |r| <= |p| + |names|
    ensures r[..|p|] == p
    decreases |names|
  {
    if |names| == 0 then p
    else
      var q := Add(p, names[0], clock(k).id, clock(k).at);
      var r := Commit(q, names[1..], clock, k + 1);
      assert q[..|p|] == p;
      assert r[..|p|] == r[..|q|][..|p|];
      r
  }

  /** `data.recipes || []`: a missing or falsy field becomes the empty list. */
  function RecipesOr(field: Option<Json>): (r: Json)
    ensures field.None? || Falsy(field.value) ==> r == JArray([])
    ensures field.Some? && !Falsy(field.value) ==> r == field.value
  {
    match field
    case Some(j) => if Falsy(j) then JArray([]) else j
    case None => JArray([])
  }

  /** handleFindRecipes, given what the find-recipes fetch would yield. */
  function Search(ui: Ui, pantry: seq<Ingredient>, result: Fetched<Json>, clock: nat -> Stamp): (r: Step)
    ensures |AllIngredients(ui, pantry)| == 0 ==>
              r == Step(ui.(error := NothingToSearchMessage), pantry, None, None)
    ensures |AllIngredients(ui, pantry)| > 0 ==>
              r.sent == Some(FindRecipes.RecipeQuery(Some(AllIngredients(ui, pantry)), ui.prefs))
    ensures |AllIngredients(ui, pantry)| > 0 && result.FetchFailed? ==>
              r.ui == ui.(error := SearchFailedMessage) && r.pantry == pantry && r.shown == None
    ensures |AllIngredients(ui, pantry)| > 0 && result.Answered? ==>
              && r.ui == ui.(detected := [], error := "")
              && r.pantry == Commit(pantry, ui.detected, clock, 0)
              && r.shown == Some(RecipesOr(result.field))
  {
    var all := AllIngredients(ui, pantry);
    if |all| == 0 then Step(ui.(error := NothingToSearchMessage), pantry, None, None)
    else
      var query := FindRecipes.RecipeQuery(Some(all), ui.prefs);
      match result
      case FetchFailed => Step(ui.(error := SearchFailedMessage), pantry, Some(query), None)
      case Answered(recipes) =>
        Step(ui.(detected := [], error := ""), Commit(pantry, ui.detected, clock, 0), Some(query), Some(RecipesOr(recipes)))
  }

  /** A click posts a request exactly when the button is enabled. */
  lemma SentIffEnabled(ui: Ui, pantry: seq<Ingredient>, result: Fetched<Json>, clock: nat -> Stamp)
    ensures Search(ui, pantry, result, clock).sent.Some? <==> !FindDisabled(ui, pantry)
  {
  }

  /** A failed search loses nothing: the pantry, the detected list and the typed text stay. */
  lemma FailedSearchKeepsState(ui: Ui, pantry: seq<Ingredient>, clock: nat -> Stamp)
    ensures var r := Search(ui, pantry, FetchFailed, clock);
            r.pantry == pantry && r.ui.detected == ui.detected && r.ui.manualInput == ui.manualInput && r.shown.None?
  {
  }

  /** Committing keeps the pantry's duplicate-free invariant. */
  lemma {:induction false} CommitKeepsDedup(p: seq<Ingredient>, names: seq<string>, clock: nat -> Stamp, k: nat)
    requires Dedup(p)
    ensures Dedup(Commit(p, names, clock, k))
    decreases |names|
  {
    if |names| > 0 {
      AddKeepsDedup(p, names[0], clock(k).id, clock(k).at);
      CommitKeepsDedup(Add(p, names[0], clock(k).id, clock(k).at), names[1..], clock, k + 1);
    }
  }

  /** Committing only ever adds entries carrying one of the committed names. */
  lemma {:induction false} CommitAddsOnlyNames(p: seq<Ingredient>, names: seq<string>, clock: nat -> Stamp, k: nat)
    ensures forall j :: |p| <= j < |Commit(p, names, clock, k)| ==> Commit(p, names, clock, k)[j].name in names
    decreases |names|
  {
    if |names| > 0 {
      var q := Add(p, names[0], clock(k).id, clock(k).at);
      var r := Commit(q, names[1..], clock, k + 1);
      CommitAddsOnlyNames(q, names[1..], clock, k + 1);
      forall j | |p| <= j < |r| ensures r[j].name in names {
        if j < |q| {
          assert |q| == |p| + 1 && q[|p|].name == names[0];
          assert r[..|q|][j] == q[j];
        } else {
          assert |q| <= j < |r|;
          var x := r[j].name;
          assert x in names[1..];
          var m :| 0 <= m < |names[1..]| && names[1..][m] == x;
          assert names[m + 1] == x;
        }
      }
    }
  }

  /** The ordering step of `CommitInOrder` when the first name was added as entry `q[|p|]`. */
  lemma AddedInOrder(p: seq<Ingredient>, q: seq<Ingredient>, r: seq<Ingredient>, names: seq<string>)
    requires |names| > 0 && |q| == |p| + 1 && q[|p|].name == names[0]
    requires |q| <= |r| && r[..|q|] == q
    requires Subseq(Names(r)[|q|..], names[1..])
    ensures Subseq(Names(r)[|p|..], names)
  {
    var added := Names(r)[|p|..];
    assert r[|p|] == q[|p|];
    assert added == [names[0]] + Names(r)[|q|..];
    assert names == [names[0]] + names[1..];
    SubseqCons(names[0], Names(r)[|q|..], names[1..]);
  }

  /** The entries a commit adds carry committed names in the order they were committed. */
  lemma {:induction false} CommitInOrder(p: seq<Ingredient>, names: seq<string>, clock: nat -> Stamp, k: nat)
    ensures Subseq(Names(Commit(p, names, clock, k))[|p|..], names)
    decreases |names|
  {
    var r := Commit(p, names, clock, k);
    if |names| == 0 {
      assert Names(r)[|p|..] == [];
    } else {
      var q := Add(p, names[0], clock(k).id, clock(k).at);
      assert r == Commit(q, names[1..], clock, k + 1);
      CommitInOrder(q, names[1..], clock, k + 1);
      if q == p {
        assert names == [names[0]] + names[1..];
        SubseqExtend(Names(r)[|p|..], names[1..], names[0]);
      } else {
        AddedInOrder(p, q, r, names);
      }
    }
  }

  /** A key known before committing is known after. */
  lemma {:induction false} CommitKeepsKnown(p: seq<Ingredient>, names: seq<string>, clock: nat -> Stamp, k: nat, key: string)
    requires Known(p, key)
    ensures Known(Commit(p, names, clock, k), key)
    decreases |names|
  {
    if |names| > 0 {
      AddKeepsKnown(p, names[0], clock(k).id, clock(k).at, key);
      CommitKeepsKnown(Add(p, names[0], clock(k).id, clock(k).at), names[1..], clock, k + 1, key);
    }
  }

  /** After committing trimmed, non-empty names, the pantry knows each of them, whether it
      was added now or was there before. */
  lemma {:induction false} CommitCovers(p: seq<Ingredient>, names: seq<string>, clock: nat -> Stamp, k: nat)
    requires forall i :: 0 <= i < |names| ==> names[i] != "" && Trim(names[i]) == names[i]
    ensures forall i :: 0 <= i < |names| ==> Known(Commit(p, names, clock, k), Normalize(names[i]))
    decreases |names|
  {
    if |names| > 0 {
      var q := Add(p, names[0], clock(k).id, clock(k).at);
      var r := Commit(q, names[1..], clock, k + 1);
      assert r == Commit(p, names, clock, k);
      AddMakesKnown(p, names[0], clock(k).id, clock(k).at);
      CommitKeepsKnown(q, names[1..], clock, k + 1, Normalize(names[0]));
      CommitCovers(q, names[1..], clock, k + 1);
      forall i | 0 <= i < |names| ensures Known(r, Normalize(names[i])) {
        if i > 0 {
          assert names[i] == names[1..][i - 1];
        }
      }
    }
  }

  /** The manual entry keeps the detected list well formed. */
  lemma AddManualWellFormed(ui: Ui)
    requires WellFormed(ui)
    ensures WellFormed(AddManual(ui))
  {
    var r := AddManual(ui);
    if Trim(ui.manualInput) != "" {
      var tokens := CommaTokens(ui.manualInput);
      forall k | 0 <= k < |r.detected|
        ensures r.detected[k] != "" && Trim(r.detected[k]) == r.detected[k] && ',' !in r.detected[k]
      {
        if k >= |ui.detected| {
          assert r.detected[k] in r.detected;
          assert r.detected[k] in tokens;
        } else {
          assert r.detected[k] == ui.detected[k];
        }
      }
    }
  }

  /** Removing keeps the detected list well formed. */
  lemma RemoveWellFormed(ui: Ui, name: string)
    requires WellFormed(ui)
    ensures WellFormed(RemoveDetected(ui, name))
  {
    var r := RemoveDetected(ui, name);
    forall k | 0 <= k < |r.detected|
      ensures r.detected[k] != "" && Trim(r.detected[k]) == r.detected[k] && ',' !in r.detected[k]
    {
      assert r.detected[k] in r.detected;
      assert multiset(r.detected)[r.detected[k]] > 0;
      assert r.detected[k] in ui.detected;
    }
  }

  /** Whatever the analyze-image route answers, the dropped image leaves the detected list
      well formed. */
  lemma DropWellFormed(ui: Ui, key: Option<string>, form: Result<Option<AnalyzeImage.ImageFile>>, reply: Completion)
    requires WellFormed(ui)
    ensures WellFormed(OnDrop(ui, Some(Received(AnalyzeImage.Route(key, form, reply).response))))
  {
  }

  /** The detected list stays well formed through a search. */
  lemma SearchWellFormed(ui: Ui, pantry: seq<Ingredient>, result: Fetched<Json>, clock: nat -> Stamp)
    requires WellFormed(ui)
    ensures WellFormed(Search(ui, pantry, result, clock).ui)
  {
  }

  /** A successful search leaves no detected ingredient behind that the pantry does not know. */
  lemma SearchCommitsDetected(ui: Ui, pantry: seq<Ingredient>, recipes: Option<Json>, clock: nat -> Stamp)
    requires WellFormed(ui)
    ensures var r := Search(ui, pantry, Answered(recipes), clock);
            r.ui.detected == [] && forall i :: 0 <= i < |ui.detected| ==> Known(r.pantry, Normalize(ui.detected[i]))
  {
    CommitCovers(pantry, ui.detected, clock, 0);
  }

  /** A posted query always carries ingredients, so the route never answers it with 400;
      it prompts the model exactly when the key is configured. */
  lemma SentQueryPassesGuard(ui: Ui, pantry: seq<Ingredient>, result: Fetched<Json>, clock: nat -> Stamp,
                             key: Option<string>, reply: Completion, decode: string -> Option<Json>)
    requires Search(ui, pantry, result, clock).sent.Some?
    ensures var x := FindRecipes.Route(key, Success(Search(ui, pantry, result, clock).sent.value), reply, decode);
            && x.response != Error(400, FindRecipes.NoIngredientsMessage)
            && (x.modelRequest.Some? <==> KeyConfigured(key))
            && (x.modelRequest.Some? ==> x.modelRequest.value == FindRecipes.BuildPrompt(AllIngredients(ui, pantry), ui.prefs))
  {
  }

  /** Repeating a token within one entry appends it twice: "egg, egg" on an empty list
      gives two "egg" entries. */
  lemma RepeatedTokenAddedTwice(prefs: FindRecipes.Prefs, error: string)
    ensures AddManual(Ui("egg, egg", [], prefs, error)).detected == ["egg", "egg"]
  {
    TrimOfTrimmed("egg");
    assert ',' !in "egg";
    assert Join(["egg", "egg"], ", ") == "egg, egg";
    CommaTokensJoin(["egg", "egg"]);
    assert Trim("egg, egg") != "" by {
      TrimEmptyIffBlank("egg, egg");
      assert !IsSpace("egg, egg"[0]);
    }
  }
}

=== FILE: pantry.dfy ===
/** The pantry store: an ordered list of ingredients with add (deduplicated
    case-insensitively), remove by id, clear, and list names. The clock readings the
    store takes from `Date.now()` are parameters of `Add`. */
module Pantry {
  import opened Common
  import opened Text

  datatype Ingredient = Ingredient(id: string, name: string, addedAt: int)

  /** The comparison key of a name being added: lower-cased, then trimmed. */
  function Normalize(name: string): string {
    Trim(Lower(name))
  }

  /** Some entry's lower-cased (but untrimmed) name equals `key`: the store's duplicate test. */
  predicate Known(p: seq<Ingredient>, key: string) {
    exists i :: 0 <= i < |p| && Lower(p[i].name) == key
  }

  /** addIngredient(name), with the id string and the timestamp it would read from the clock.
      The entry keeps the name exactly as given. */
  function Add(p: seq<Ingredient>, name: string, id: string, addedAt: int): (r: seq<Ingredient>)
    ensures Normalize(name) == "" ==> r == p
    ensures Known(p, Normalize(name)) ==> r == p
    ensures Normalize(name) != "" && !Known(p, Normalize(name)) ==>
              |r| == |p| + 1 && r[..|p|] == p && r[|p|] == Ingredient(id, name, addedAt)
  {
    var key := Normalize(name);
    if key == "" || Known(p, key) then p
    else p + [Ingredient(id, name, addedAt)]
  }

  /** removeIngredient(id): every entry carrying the id goes, the rest stay in order. */
  function Remove(p: seq<Ingredient>, id: string): (r: seq<Ingredient>)
    ensures forall e: Ingredient :: e in r <==> e in p && e.id != id
    ensures forall e: Ingredient :: e.id != id ==> multiset(r)[e] == multiset(p)[e]
    ensures Subseq(r, p)
    ensures (forall k :: 0 <= k < |p| ==> p[k].id != id) ==> r == p
  {
    Filter(p, (e: Ingredient) => e.id != id)
  }

  /** clearPantry(). */
  function Clear(): (r: seq<Ingredient>)
    ensures |r| == 0
  {
    []
  }

  /** getIngredientNames(): the stored names, one per entry, in insertion order. */
  function Names(p: seq<Ingredient>): (r: seq<string>)
    ensures |r| == |p|
    ensures forall i :: 0 <= i < |p| ==> r[i] == p[i].name
  {
    seq(|p|, i requires 0 <= i < |p| => p[i].name)
  }

  /** No entry's `key` is empty, and no entry's `key` equals the `low` form of an earlier
      entry's name. Stated for arbitrary key functions so that the structural lemmas below
      do not depend on how names are lower-cased or trimmed. */
  ghost predicate DistinctKeys(p: seq<Ingredient>, low: string -> string, key: string -> string) {
    && (forall j :: 0 <= j < |p| ==> key(p[j].name) != "")
    && (forall i, j :: 0 <= i < j < |p| ==> low(p[i].name) != key(p[j].name))
  }

  /** The invariant the store keeps: every entry's key is non-empty, and no entry's key
      equals the lower-cased name of an earlier entry. */
  ghost predicate Dedup(p: seq<Ingredient>) {
    DistinctKeys(p, Lower, Normalize)
  }

  lemma AddKeepsDedup(p: seq<Ingredient>, name: string, id: string, addedAt: int)
    requires Dedup(p)
    ensures Dedup(Add(p, name, id, addedAt))
  {
    var key := Normalize(name);
    if key != "" && !Known(p, key) {
      var r := Add(p, name, id, addedAt);
      forall i, j | 0 <= i < j < |r| ensures Lower(r[i].name) != Normalize(r[j].name) {
        if j == |p| {
          assert r[i] == p[i];
        } else {
          assert r[i] == p[i] && r[j] == p[j];
        }
      }
    }
  }

  lemma DistinctTail(p: seq<Ingredient>, low: string -> string, key: string -> string)
    requires DistinctKeys(p, low, key) && |p| > 0
    ensures DistinctKeys(p[1..], low, key)
  {
    var tail := p[1..];
    forall i, j | 0 <= i < j < |tail| ensures low(tail[i].name) != key(tail[j].name) {
      assert tail[i] == p[i + 1] && tail[j] == p[j + 1];
    }
  }

  /** An entry may go in front of a list whose keys all differ from its `low` name. */
  lemma DistinctCons(e: Ingredient, rest: seq<Ingredient>, low: string -> string, key: string -> string)
    requires DistinctKeys(rest, low, key) && key(e.name) != ""
    requires forall x :: x in rest ==> low(e.name) != key(x.name)
    ensures DistinctKeys([e] + rest, low, key)
  {
    var r := [e] + rest;
    forall i, j | 0 <= i < j < |r| ensures low(r[i].name) != key(r[j].name) {
      assert r[j] == rest[j - 1];
      if i == 0 {
        assert rest[j - 1] in rest;
      } else {
        assert r[i] == rest[i - 1];
      }
    }
    forall j | 0 <= j < |r| ensures key(r[j].name) != "" {
      if j > 0 { assert r[j] == rest[j - 1]; }
    }
  }

  /** Dropping entries, keeping the order of the rest, keeps the keys distinct. */
  lemma {:induction false} SubseqKeepsDistinct(a: seq<Ingredient>, b: seq<Ingredient>, low: string -> string, key: string -> string)
    requires Subseq(a, b) && DistinctKeys(b, low, key)
    ensures DistinctKeys(a, low, key)
    decreases |b|
  {
    if |a| > 0 {
      DistinctTail(b, low, key);
      if a[0] == b[0] {
        SubseqKeepsDistinct(a[1..], b[1..], low, key);
        SubseqMembers(a[1..], b[1..]);
        forall x | x in a[1..] ensures low(a[0].name) != key(x.name) {
          var m :| 0 <= m < |b[1..]| && b[1..][m] == x;
          assert b[m + 1] == x;
        }
        DistinctCons(a[0], a[1..], low, key);
        assert a == [a[0]] + a[1..];
      } else {
        SubseqKeepsDistinct(a, b[1..], low, key);
      }
    }
  }

  lemma RemoveKeepsDedup(p: seq<Ingredient>, id: string)
    requires Dedup(p)
    ensures Dedup(Remove(p, id))
  {
    SubseqKeepsDistinct(Remove(p, id), p, Lower, Normalize);
  }

  /** Entries are never lost by adding, so a known key stays known. */
  lemma AddKeepsKnown(p: seq<Ingredient>, name: string, id: string, addedAt: int, key: string)
    requires Known(p, key)
    ensures Known(Add(p, name, id, addedAt), key)
  {
    var i :| 0 <= i < |p| && Lower(p[i].name) == key;
    assert Add(p, name, id, addedAt)[i] == p[i];
  }

  /** After adding a name that is already trimmed and non-blank, its key is known. */
  lemma AddMakesKnown(p: seq<Ingredient>, name: string, id: string, addedAt: int)
    requires Trim(name) == name && name != ""
    ensures Known(Add(p, name, id, addedAt), Normalize(name))
  {
    LowerTrimCommute(name);
    var r := Add(p, name, id, addedAt);
    if !Known(p, Normalize(name)) {
      assert Lower(r[|p|].name) == Normalize(name);
    }
  }

  /** Re-adding an already-trimmed name changes nothing. */
  lemma AddIdempotent(p: seq<Ingredient>, name: string, id1: string, t1: int, id2: string, t2: int)
    requires Trim(name) == name
    ensures Add(Add(p, name, id1, t1), name, id2, t2) == Add(p, name, id1, t1)
  {
    var key := Normalize(name);
    if key != "" {
      LowerTrimCommute(name);
      AddMakesKnown(p, name, id1, t1);
    }
  }

  /** Two names with the same key, added to an empty pantry, leave one entry carrying the
      first name, provided the first name's lower-cased form is already trimmed. */
  lemma SameKeyAddedOnce(s1: string, s2: string, id1: string, t1: int, id2: string, t2: int)
    requires Normalize(s1) == Normalize(s2) != ""
    requires Trim(s1) == s1
    ensures Add(Add([], s1, id1, t1), s2, id2, t2) == [Ingredient(id1, s1, t1)]
  {
    LowerTrimCommute(s1);
    var p := Add([], s1, id1, t1);
    assert Lower(p[0].name) == Normalize(s2);
  }

  lemma NormalizeEgg()
    ensures Lower("egg") == "egg" && Lower(" egg") == " egg"
    ensures Normalize("egg") == "egg" && Normalize(" egg") == "egg"
  {
    assert Lower("egg") == "egg";
    assert Lower(" egg") == " egg";
    TrimOfTrimmed("egg");
    TrimLeadingSpace(' ', "egg");
    assert [' '] + "egg" == " egg";
  }

  /** The duplicate test does not trim stored names: a name stored with surrounding
      whitespace is never matched again, so adding " egg" and then "egg", or " egg" twice,
      keeps two entries. */
  lemma UntrimmedNameDefeatsDedup()
    ensures |Add(Add([], " egg", "1", 1), "egg", "2", 2)| == 2
    ensures |Add(Add([], " egg", "1", 1), " egg", "2", 2)| == 2
  {
    NormalizeEgg();
    var p := Add([], " egg", "1", 1);
    assert p == [Ingredient("1", " egg", 1)];
    assert !Known(p, "egg") by {
      assert Lower(p[0].name) == " egg";
      assert " egg" != "egg";
    }
  }

  /** Names after an effective add are the old names followed by the given name. */
  lemma NamesOfAdd(p: seq<Ingredient>, name: string, id: string, addedAt: int)
    ensures var r := Add(p, name, id, addedAt);
            Names(r) == Names(p) || Names(r) == Names(p) + [name]
  {
    var r := Add(p, name, id, addedAt);
    if r != p {
      assert Names(r) == Names(p) + [name];
    }
  }

  /** Ids are clock readings, so two adds within the same millisecond share an id, and
      removing by that id takes both entries. */
  lemma SharedIdRemovesBoth(n1: string, n2: string, id: string, t: int)
    requires Normalize(n1) != "" && Normalize(n2) != "" && Lower(n1) != Normalize(n2)
    ensures |Add(Add([], n1, id, t), n2, id, t)| == 2
    ensures Remove(Add(Add([], n1, id, t), n2, id, t), id) == []
  {
    var p := Add([], n1, id, t);
    assert p == [Ingredient(id, n1, t)];
    assert !Known(p, Normalize(n2));
    var q := Add(p, n2, id, t);
    assert q == [Ingredient(id, n1, t), Ingredient(id, n2, t)];
  }
}

=== FILE: text.dfy ===
/** The string primitives the application leans on, over ASCII: `toLowerCase`, `trim`,
    substring search, `split` and `join`, and the "split on commas, trim, drop empties"
    idiom used both by the image route and by the manual-entry box. */
module Text {
  import opened Common

  /** The ASCII characters JavaScript's `trim` removes: space, tab, line feed,
      vertical tab, form feed, carriage return. */
  predicate IsSpace(c: char) {
    c == ' ' || c == '\t' || c == '\n' || c == '\r' || c as int == 0x0B || c as int == 0x0C
  }

  /** ASCII `toLowerCase` of one character. */
  function LowerChar(c: char): char {
    if 'A' <= c <= 'Z' then (c as int + 32) as char else c
  }

  /** ASCII `toLowerCase`. */
  function Lower(s: string): (r: string)
    ensures |r| == |s|
    ensures forall i :: 0 <= i < |s| ==> r[i] == LowerChar(s[i])
  {
    seq(|s|, i requires 0 <= i < |s| => LowerChar(s[i]))
  }

  /** The index of the first non-whitespace character at or after `i` (or `|s|`). */
  function SkipSpaces(s: string, i: nat): (j: nat)
    requires i <= |s|
    ensures i <= j <= |s|
    ensures forall k :: i <= k < j ==> IsSpace(s[k])
    ensures j < |s| ==> !IsSpace(s[j])
    decreases |s| - i
  {
    if i < |s| && IsSpace(s[i]) then SkipSpaces(s, i + 1) else i
  }

  /** The index just past the last non-whitespace character in `s[lo..j]` (or `lo`). */
  function SkipSpacesBack(s: string, lo: nat, j: nat): (e: nat)
    requires lo <= j <= |s|
    ensures lo <= e <= j
    ensures forall k :: e <= k < j ==> IsSpace(s[k])
    ensures e > lo ==> !IsSpace(s[e - 1])
    decreases j
  {
    if j > lo && IsSpace(s[j - 1]) then SkipSpacesBack(s, lo, j - 1) else j
  }

  /** String.prototype.trim over ASCII whitespace. */
  function Trim(s: string): (r: string)
    ensures |r| == 0 || (!IsSpace(r[0]) && !IsSpace(r[|r| - 1]))
  {
    var i := SkipSpaces(s, 0);
    s[i..SkipSpacesBack(s, i, |s|)]
  }

  /** `s[i..j]` is the trim of `s` when everything outside it is whitespace and it has
      no whitespace at either end. */
  lemma TrimUnique(s: string, i: nat, j: nat)
    requires i <= j <= |s|
    requires forall k :: 0 <= k < i ==> IsSpace(s[k])
    requires forall k :: j <= k < |s| ==> IsSpace(s[k])
    requires i == j || (!IsSpace(s[i]) && !IsSpace(s[j - 1]))
    ensures Trim(s) == s[i..j]
  {
    var i' := SkipSpaces(s, 0);
    var e := SkipSpacesBack(s, i', |s|);
    if i == j {
      assert forall k :: 0 <= k < |s| ==> IsSpace(s[k]) by {
        forall k | 0 <= k < |s| ensures IsSpace(s[k]) {
          if k >= i { assert k >= j; }
        }
      }
      assert i' == |s|;
    } else {
      assert i' == i;
      assert e == j;
    }
  }

  /** `trim` only removes characters. */
  lemma TrimChars(s: string)
    ensures forall c :: c in Trim(s) ==> c in s
  {
  }

  /** `trim` yields the empty string exactly when the input is blank. */
  lemma TrimEmptyIffBlank(s: string)
    ensures Trim(s) == "" <==> forall k :: 0 <= k < |s| ==> IsSpace(s[k])
  {
    var i := SkipSpaces(s, 0);
    var e := SkipSpacesBack(s, i, |s|);
    if Trim(s) == "" {
      assert e == i;
      forall k | 0 <= k < |s| ensures IsSpace(s[k]) {
        if k >= i { assert e <= k; }
      }
    }
  }

  /** A string with no whitespace at either end is its own trim. */
  lemma TrimOfTrimmed(s: string)
    requires |s| == 0 || (!IsSpace(s[0]) && !IsSpace(s[|s| - 1]))
    ensures Trim(s) == s
  {
    TrimUnique(s, 0, |s|);
  }

  /** `trim` is idempotent. */
  lemma TrimIdempotent(s: string)
    ensures Trim(Trim(s)) == Trim(s)
  {
    TrimOfTrimmed(Trim(s));
  }

  /** Whitespace facts about `s` carry over to `[c] + s`, one position later. */
  lemma ShiftedSpaces(c: char, s: string, i: nat, e: nat)
    requires IsSpace(c) && i <= e <= |s|
    requires forall k :: 0 <= k < i ==> IsSpace(s[k])
    requires forall k :: e <= k < |s| ==> IsSpace(s[k])
    requires i == e || (!IsSpace(s[i]) && !IsSpace(s[e - 1]))
    ensures var t := [c] + s;
            && (forall k :: 0 <= k < i + 1 ==> IsSpace(t[k]))
            && (forall k :: e + 1 <= k < |t| ==> IsSpace(t[k]))
            && (i == e || (!IsSpace(t[i + 1]) && !IsSpace(t[e])))
            && t[i + 1..e + 1] == s[i..e]
  {
    var t := [c] + s;
    forall k | 0 <= k < i + 1 ensures IsSpace(t[k]) {
      if k > 0 { assert t[k] == s[k - 1]; }
    }
    forall k | e + 1 <= k < |t| ensures IsSpace(t[k]) {
      assert t[k] == s[k - 1];
    }
  }

  /** A leading whitespace character does not survive `trim`. */
  lemma TrimLeadingSpace(c: char, s: string)
    requires IsSpace(c)
    ensures Trim([c] + s) == Trim(s)
  {
    var i := SkipSpaces(s, 0);
    var e := SkipSpacesBack(s, i, |s|);
    if i == e {
      TrimEmptyIffBlank(s);
      ShiftedSpaces(c, s, |s|, |s|);
      TrimUnique([c] + s, |s| + 1, |s| + 1);
    } else {
      ShiftedSpaces(c, s, i, e);
      TrimUnique([c] + s, i + 1, e + 1);
    }
  }

  lemma LowerPreservesSpace(c: char)
    ensures IsSpace(LowerChar(c)) <==> IsSpace(c)
  {
  }

  /** Lower-casing keeps every position's whitespace-ness. */
  lemma LowerSpaces(s: string)
    ensures forall k :: 0 <= k < |s| ==> (IsSpace(Lower(s)[k]) <==> IsSpace(s[k]))
  {
    forall k | 0 <= k < |s| ensures IsSpace(Lower(s)[k]) <==> IsSpace(s[k]) {
      LowerPreservesSpace(s[k]);
    }
  }

  /** Lower-casing commutes with taking a slice. */
  lemma LowerSlice(s: string, i: nat, e: nat)
    requires i <= e <= |s|
    ensures Lower(s)[i..e] == Lower(s[i..e])
  {
  }

  /** Lower-casing and trimming commute (so `toLowerCase().trim()` is also `trim().toLowerCase()`). */
  lemma LowerTrimCommute(s: string)
    ensures Trim(Lower(s)) == Lower(Trim(s))
  {
    var i := SkipSpaces(s, 0);
    var e := SkipSpacesBack(s, i, |s|);
    var l := Lower(s);
    LowerSpaces(s);
    TrimUnique(l, i, e);
    LowerSlice(s, i, e);
  }

  /** `pat` occurs in `s` starting at index `k`. */
  predicate Occurs(s: string, pat: string, k: int) {
    0 <= k && k + |pat| <= |s| && s[k..k + |pat|] == pat
  }

  /** `s` has no occurrence of `pat`. */
  ghost predicate Free(s: string, pat: string) {
    forall k :: !Occurs(s, pat, k)
  }

  /** String.prototype.indexOf(pat, from): the first occurrence of `pat` at or after `from`. */
  function FindFrom(s: string, pat: string, from: nat): (r: Option<nat>)
    ensures r.Some? ==> from <= r.value && Occurs(s, pat, r.value)
    ensures r.Some? ==> forall k :: from <= k < r.value ==> !Occurs(s, pat, k)
    ensures r.None? ==> forall k :: from <= k ==> !Occurs(s, pat, k)
    decreases |s| - from
  {
    if from + |pat| > |s| then None
    else if s[from..from + |pat|] == pat then Some(from)
    else FindFrom(s, pat, from + 1)
  }

  /** Array.prototype.join. */
  function Join(xs: seq<string>, sep: string): string {
    if |xs| == 0 then ""
    else if |xs| == 1 then xs[0]
    else xs[0] + sep + Join(xs[1..], sep)
  }

  /** String.prototype.split with a non-empty string separator: the pieces between
      successive left-to-right occurrences of `sep`. */
  function Split(s: string, sep: string): (r: seq<string>)
    requires |sep| > 0
    ensures |r| >= 1
    ensures forall k :: 0 <= k < |r| ==> Free(r[k], sep)
    decreases |s|
  {
    match FindFrom(s, sep, 0)
    case None => [s]
    case Some(i) =>
      assert Free(s[..i], sep) by {
        forall k ensures !Occurs(s[..i], sep, k) {
          if Occurs(s[..i], sep, k) {
            assert s[..i][k..k + |sep|] == s[k..k + |sep|];
            assert Occurs(s, sep, k);
          }
        }
      }
      [s[..i]] + Split(s[i + |sep|..], sep)
  }

  /** Joining the pieces of a split with the same separator gives back the original string. */
  lemma {:induction false} JoinSplit(s: string, sep: string)
    requires |sep| > 0
    ensures Join(Split(s, sep), sep) == s
    decreases |s|
  {
    match FindFrom(s, sep, 0)
    case None =>
    case Some(i) =>
      var rest := Split(s[i + |sep|..], sep);
      JoinSplit(s[i + |sep|..], sep);
      assert Split(s, sep) == [s[..i]] + rest;
      assert s == s[..i] + sep + s[i + |sep|..];
  }

  /** Splitting a join gives back the joined pieces, provided no piece contains the
      separator's first character (so no occurrence straddles a boundary). */
  lemma {:induction false} SplitJoin(xs: seq<string>, sep: string)
    requires |sep| > 0 && |xs| > 0
    requires forall k :: 0 <= k < |xs| ==> sep[0] !in xs[k]
    ensures Split(Join(xs, sep), sep) == xs
    decreases |xs|
  {
    var x := xs[0];
    var s := Join(xs, sep);
    if |xs| == 1 {
      assert FindFrom(s, sep, 0).None? by {
        forall k | 0 <= k < |s| ensures !Occurs(s, sep, k) {
          assert s[k] in x;
        }
      }
    } else {
      var tail := Join(xs[1..], sep);
      assert s == x + sep + tail;
      assert Occurs(s, sep, |x|) by {
        assert s[|x|..|x| + |sep|] == sep;
      }
      forall k | 0 <= k < |x| ensures !Occurs(s, sep, k) {
        assert s[k] == x[k];
        assert x[k] in x;
      }
      assert FindFrom(s, sep, 0) == Some(|x|);
      assert s[..|x|] == x;
      assert s[|x| + |sep|..] == tail;
      SplitJoin(xs[1..], sep);
    }
  }

  /** Splitting on one character yields one more piece than there are occurrences of it. */
  lemma {:induction false} SplitCharCount(s: string, c: char)
    ensures |Split(s, [c])| == multiset(s)[c] + 1
    decreases |s|
  {
    match FindFrom(s, [c], 0)
    case None =>
      forall k | 0 <= k < |s| ensures s[k] != c {
        assert !Occurs(s, [c], k);
        assert s[k..k + 1] == [s[k]];
      }
      assert c !in s;
    case Some(i) =>
      SplitCharCount(s[i + 1..], c);
      forall k | 0 <= k < i ensures s[k] != c {
        assert !Occurs(s, [c], k);
        assert s[k..k + 1] == [s[k]];
      }
      assert c !in s[..i];
      assert s[i] == c by { assert s[i..i + 1] == [c]; }
      assert s == s[..i] + [s[i]] + s[i + 1..];
      assert multiset(s) == multiset(s[..i]) + multiset([s[i]]) + multiset(s[i + 1..]);
  }

  /** `.map(x => x.trim())`. */
  function TrimAll(pieces: seq<string>): (r: seq<string>)
    ensures |r| == |pieces|
    ensures forall j :: 0 <= j < |pieces| ==> r[j] == Trim(pieces[j])
  {
    seq(|pieces|, j requires 0 <= j < |pieces| => Trim(pieces[j]))
  }

  /** One step of `TrimNonEmpty`: the first piece's trim in front of the rest, if non-empty. */
  function KeepNonEmpty(t: string, rest: seq<string>): seq<string> {
    if t == "" then rest else [t] + rest
  }

  /** The step keeps every element non-empty and trimmed. */
  lemma KeepNonEmptyTrimmed(piece: string, rest: seq<string>)
    requires forall k :: 0 <= k < |rest| ==> rest[k] != "" && Trim(rest[k]) == rest[k]
    ensures forall k :: 0 <= k < |KeepNonEmpty(Trim(piece), rest)| ==>
              KeepNonEmpty(Trim(piece), rest)[k] != "" && Trim(KeepNonEmpty(Trim(piece), rest)[k]) == KeepNonEmpty(Trim(piece), rest)[k]
  {
    TrimIdempotent(piece);
  }

  /** The step keeps every element's characters within some piece. */
  lemma KeepNonEmptyChars(pieces: seq<string>, rest: seq<string>)
    requires |pieces| > 0
    requires forall k :: 0 <= k < |rest| ==> exists j :: 0 <= j < |pieces[1..]| && forall c :: c in rest[k] ==> c in pieces[1..][j]
    ensures forall k :: 0 <= k < |KeepNonEmpty(Trim(pieces[0]), rest)| ==>
              exists j :: 0 <= j < |pieces| && forall c :: c in KeepNonEmpty(Trim(pieces[0]), rest)[k] ==> c in pieces[j]
  {
    TrimChars(pieces[0]);
    forall k | 0 <= k < |rest| ensures exists j :: 0 <= j < |pieces| && forall c :: c in rest[k] ==> c in pieces[j] {
      var j :| 0 <= j < |pieces[1..]| && forall c :: c in rest[k] ==> c in pieces[1..][j];
      assert pieces[1..][j] == pieces[j + 1];
    }
  }

  /** The step keeps the result a subsequence of the trimmed pieces. */
  lemma KeepNonEmptyOrder(pieces: seq<string>, rest: seq<string>)
    requires |pieces| > 0 && Subseq(rest, TrimAll(pieces[1..]))
    ensures Subseq(KeepNonEmpty(Trim(pieces[0]), rest), TrimAll(pieces))
  {
    var t := Trim(pieces[0]);
    assert TrimAll(pieces) == [t] + TrimAll(pieces[1..]);
    if t == "" {
      SubseqExtend(rest, TrimAll(pieces[1..]), t);
    } else {
      SubseqCons(t, rest, TrimAll(pieces[1..]));
    }
  }

  /** Trims each piece and keeps the non-empty results, in order (`.map(trim).filter(nonEmpty)`). */
  function TrimNonEmpty(pieces: seq<string>): (r: seq<string>)
    ensures |r| <= |pieces|
    ensures forall k :: 0 <= k < |r| ==> r[k] != "" && Trim(r[k]) == r[k]
    ensures forall k :: 0 <= k < |r| ==> exists j :: 0 <= j < |pieces| && forall c :: c in r[k] ==> c in pieces[j]
    ensures Subseq(r, TrimAll(pieces))
  {
    if |pieces| == 0 then []
    else
      var rest := TrimNonEmpty(pieces[1..]);
      KeepNonEmptyTrimmed(pieces[0], rest);
      KeepNonEmptyChars(pieces, rest);
      KeepNonEmptyOrder(pieces, rest);
      KeepNonEmpty(Trim(pieces[0]), rest)
  }

  /** The trimmed non-empty pieces are exactly the trims of the pieces, filtered for
      non-emptiness: so every non-blank piece contributes its trim, once, in piece order. */
  lemma {:induction false} TrimNonEmptyIsFilter(pieces: seq<string>)
    ensures TrimNonEmpty(pieces) == Filter(TrimAll(pieces), (t: string) => t != "")
  {
    var keep := (t: string) => t != "";
    if |pieces| > 0 {
      var all := TrimAll(pieces);
      assert all[0] == Trim(pieces[0]);
      assert all[1..] == TrimAll(pieces[1..]);
      assert Filter(all, keep) == (if keep(all[0]) then [all[0]] else []) + Filter(TrimAll(pieces[1..]), keep);
      TrimNonEmptyIsFilter(pieces[1..]);
    }
  }

  /** The trimmed non-empty pieces of a concatenation are those of each part, in turn. */
  lemma TrimNonEmptyAppend(xs: seq<string>, ys: seq<string>)
    ensures TrimNonEmpty(xs + ys) == TrimNonEmpty(xs) + TrimNonEmpty(ys)
  {
    assert TrimAll(xs + ys) == TrimAll(xs) + TrimAll(ys);
    TrimNonEmptyIsFilter(xs + ys);
    TrimNonEmptyIsFilter(xs);
    TrimNonEmptyIsFilter(ys);
    FilterAppend(TrimAll(xs), TrimAll(ys), (t: string) => t != "");
  }

  /** `s.split(',').map(x => x.trim()).filter(x => x.length > 0)`. */
  function CommaTokens(s: string): (r: seq<string>)
    ensures forall k :: 0 <= k < |r| ==> r[k] != "" && Trim(r[k]) == r[k] && ',' !in r[k]
    ensures |r| <= multiset(s)[','] + 1
  {
    var pieces := Split(s, ",");
    SplitCharCount(s, ',');
    forall j | 0 <= j < |pieces| ensures ',' !in pieces[j] {
      forall k | 0 <= k < |pieces[j]| ensures pieces[j][k] != ',' {
        assert !Occurs(pieces[j], ",", k);
        assert pieces[j][k..k + 1] == [pieces[j][k]];
      }
    }
    TrimNonEmpty(pieces)
  }

  /** A blank string (empty or all whitespace) yields no tokens. */
  lemma CommaTokensOfBlank(s: string)
    requires forall k :: 0 <= k < |s| ==> IsSpace(s[k])
    ensures CommaTokens(s) == []
  {
    forall k | 0 <= k < |s| ensures !Occurs(s, ",", k) {
      assert s[k..k + 1] == [s[k]];
    }
    assert Split(s, ",") == [s];
    TrimEmptyIffBlank(s);
  }

  /** In `a + [c] + b`, positions inside `a` hold an occurrence of `[c]` exactly when `a` does there. */
  lemma OccursInPrefix(a: string, c: char, b: string, k: int)
    requires 0 <= k < |a|
    ensures Occurs(a + [c] + b, [c], k) <==> Occurs(a, [c], k)
  {
    assert (a + [c] + b)[k..k + 1] == a[k..k + 1];
  }

  /** An occurrence with none before it is the one `FindFrom` reports. */
  lemma FirstOccurrence(s: string, pat: string, i: nat)
    requires Occurs(s, pat, i)
    requires forall k :: 0 <= k < i ==> !Occurs(s, pat, k)
    ensures FindFrom(s, pat, 0) == Some(i)
  {
  }

  /** Splitting at the first occurrence of the separator. */
  lemma SplitAtFirst(s: string, sep: string, i: nat)
    requires |sep| > 0 && FindFrom(s, sep, 0) == Some(i)
    ensures Split(s, sep) == [s[..i]] + Split(s[i + |sep|..], sep)
  {
  }

  /** Cutting `a + [c] + b` inside `a`. */
  lemma CutInPrefix(a: string, c: char, b: string, i: nat)
    requires i <= |a|
    ensures (a + [c] + b)[..i] == a[..i]
    ensures (a + [c] + b)[i..] == a[i..] + [c] + b
  {
  }

  /** The first occurrence of `[c]` in `a + [c] + b`: the first in `a`, else the one after `a`. */
  lemma FirstInPrefix(a: string, c: char, b: string)
    ensures FindFrom(a, [c], 0).Some? ==> FindFrom(a + [c] + b, [c], 0) == FindFrom(a, [c], 0)
    ensures FindFrom(a, [c], 0).None? ==> FindFrom(a + [c] + b, [c], 0) == Some(|a|)
  {
    var s := a + [c] + b;
    forall k | 0 <= k < |a| ensures Occurs(s, [c], k) <==> Occurs(a, [c], k) {
      OccursInPrefix(a, c, b, k);
    }
    match FindFrom(a, [c], 0)
    case None =>
      assert Occurs(s, [c], |a|) by { assert s[|a|..|a| + 1] == [c]; }
      FirstOccurrence(s, [c], |a|);
    case Some(i) =>
      FirstOccurrence(s, [c], i);
  }

  /** Splitting on a character across one occurrence of it: the pieces of the text before
      it followed by the pieces of the text after it. */
  lemma {:induction false} SplitAppend(a: string, c: char, b: string)
    ensures Split(a + [c] + b, [c]) == Split(a, [c]) + Split(b, [c])
    decreases |a|
  {
    var s := a + [c] + b;
    FirstInPrefix(a, c, b);
    match FindFrom(a, [c], 0)
    case None =>
      SplitAtFirst(s, [c], |a|);
      CutInPrefix(a, c, b, |a|);
      assert a[..|a|] == a;
      assert s[|a| + 1..] == b;
    case Some(i) =>
      SplitAtFirst(s, [c], i);
      SplitAtFirst(a, [c], i);
      CutInPrefix(a, c, b, i);
      CutInPrefix(a, c, b, i + 1);
      SplitAppend(a[i + 1..], c, b);
  }

  /** The tokens of a text are the tokens before any one of its commas followed by the
      tokens after it, for any text: with `CommaTokensOfPiece` this fixes every result. */
  lemma CommaTokensAppend(a: string, b: string)
    ensures CommaTokens(a + "," + b) == CommaTokens(a) + CommaTokens(b)
  {
    assert a + "," + b == a + [','] + b;
    SplitAppend(a, ',', b);
    TrimNonEmptyAppend(Split(a, ","), Split(b, ","));
  }

  /** A comma-free text is one token, its trim, unless it is blank. */
  lemma CommaTokensOfPiece(a: string)
    requires ',' !in a
    ensures CommaTokens(a) == if Trim(a) == "" then [] else [Trim(a)]
  {
    forall k ensures !Occurs(a, ",", k) {
      if 0 <= k && k + 1 <= |a| {
        assert a[k..k + 1] == [a[k]];
      }
    }
    assert Split(a, ",") == [a];
    assert TrimNonEmpty([a])[..] == TrimNonEmpty([a]);
    assert [a][1..] == [];
  }

  /** Joining trimmed, non-empty, comma-free names with ", " and tokenizing the result
      gives the names back, in order and with repetitions. */
  lemma {:induction false} CommaTokensJoin(xs: seq<string>)
    requires forall k :: 0 <= k < |xs| ==> xs[k] != "" && Trim(xs[k]) == xs[k] && ',' !in xs[k]
    ensures CommaTokens(Join(xs, ", ")) == xs
  {
    if |xs| == 0 {
      CommaTokensOfBlank("");
    } else {
      var ys := seq(|xs|, k requires 0 <= k < |xs| => if k == 0 then xs[0] else " " + xs[k]);
      JoinSpaced(xs, ys);
      forall k | 0 <= k < |ys| ensures ","[0] !in ys[k] {
        if k > 0 { assert ys[k] == [' '] + xs[k]; }
      }
      SplitJoin(ys, ",");
      TrimSpaced(xs, ys);
    }
  }

  /** `Join(xs, ", ")` is `Join(ys, ",")` where every piece after the first gains a leading space. */
  lemma {:induction false} JoinSpaced(xs: seq<string>, ys: seq<string>)
    requires |xs| == |ys| > 0
    requires ys[0] == xs[0]
    requires forall k :: 0 < k < |xs| ==> ys[k] == " " + xs[k]
    ensures Join(xs, ", ") == Join(ys, ",")
    decreases |xs|
  {
    if |xs| > 1 {
      var xs' := [xs[1]] + xs[2..];
      var ys' := [xs[1]] + ys[2..];
      assert xs' == xs[1..];
      JoinSpaced(xs[1..], ys');
      assert Join(xs, ", ") == xs[0] + ", " + Join(xs[1..], ", ");
      JoinFirstSpaced(ys', ys[1..]);
    }
  }

  /** Prefixing the first piece with a space prefixes the join with a space. */
  lemma JoinFirstSpaced(ys: seq<string>, zs: seq<string>)
    requires |ys| == |zs| > 0
    requires zs[0] == " " + ys[0] && zs[1..] == ys[1..]
    ensures Join(zs, ",") == " " + Join(ys, ",")
  {
  }

  /** The pieces of the spaced join trim back to the original names, all kept. */
  lemma {:induction false} TrimSpaced(xs: seq<string>, ys: seq<string>)
    requires |xs| == |ys|
    requires |xs| > 0 ==> ys[0] == xs[0]
    requires forall k :: 0 < k < |xs| ==> ys[k] == " " + xs[k]
    requires forall k :: 0 <= k < |xs| ==> xs[k] != "" && Trim(xs[k]) == xs[k]
    ensures TrimNonEmpty(ys) == xs
    decreases |xs|
  {
    if |xs| > 0 {
      if |xs| > 1 {
        var ys' := [xs[1]] + ys[2..];
        assert ys'[1..] == ys[2..];
        TrimSpaced(xs[1..], ys');
        TrimNonEmptyHeadTrim(ys', ys[1..]);
      }
    }
  }

  /** Only the trimmed form of the first piece matters. */
  lemma TrimNonEmptyHeadTrim(ys: seq<string>, zs: seq<string>)
    requires |ys| == |zs| > 0
    requires zs[0] == " " + ys[0] && zs[1..] == ys[1..]
    ensures TrimNonEmpty(zs) == TrimNonEmpty(ys)
  {
    TrimLeadingSpace(' ', ys[0]);
  }
}
